=== FILE: README.md ===
# Chat application core, modelled in Dafny

This project models the server and client logic of a small chat web
application. Signed-in users talk to an AI assistant, and their
conversations are kept in a MongoDB collection of chat messages. The model
covers these parts:

- **Message store** (`ChatService`). A `ChatStore` object holds the stored
  records as a sequence.
  - `SaveChatMessage` appends one record after three checks.
  - `DeleteChatHistory` removes the records a user/session query selects.
  - The history, recent-history, sessions and count queries are functions
    of the store. The history query is "the `limit` newest selected
    records, newest first".
- **Stored message** (`ChatMessageModel`). The record type and the schema
  that guards it: required fields, the role enum, trimmed content and a
  default timestamp.
- **Errors** (`Errors`). The API error classes with their fixed status and
  code, `handleAPIError`, `withErrorHandler`, and the request validators.
  A thrown error is a value: validators and services return a `Result`,
  and route handlers return an `Outcome`.
- **Users** (`UserService`). A `UserTable` object holds the users keyed by
  email. `CreateUser` inserts, and lookups by email and by id read the
  table. The password is kept only as its hash.
- **Middleware** (`Middleware`). The `authorized` callback that decides
  which paths need a session token.
- **Routes** (`HistoryRoute`, `RegisterRoute`, `ChatRoute`). The GET/DELETE
  history endpoint, the registration endpoint and the chat endpoint. Each
  is stated as the response it produces and the change it makes to the
  store or table.
- **Client error state** (`ErrorHandlerHook`). The `useErrorHandler` hook
  as an object with an `error` and an `isLoading` field and the callbacks
  that update them.
- **Chat screen** (`ChatInterface`). The input box and when it sends, the
  send-button rule, and how each part of a received message is classified
  by its type and state.

The parts of JavaScript string semantics the code relies on are in
`JsString`: the `\s` white-space class, `trim`, `startsWith` and `parseInt`
without a radix (ECMA-262, sections 22.1.3.32 and 19.2.5).

Outside effects are inputs to the model:

- the database's health is a `Fault` (healthy, the connection fails, or the
  operation fails);
- the clock is a `now` parameter;
- parsing of the `before` date is a `parseDate` function parameter;
- the session's user id is an optional string;
- the AI reply is a `Reply` value (generation fails, or it finishes with a
  text).

## Model

| member | source | states |
|---|---|---|
| JsString.Trim | src/lib/errors.ts:125 | `trim` gives the empty string exactly for an all-white-space input; otherwise the result neither starts nor ends with white space |
| JsString.TrimShape | src/lib/models/ChatMessage.ts:25 | what `trim` keeps is one contiguous piece of the input, and everything it removes before and after that piece is white space |
| JsString.TrimIdempotent | src/lib/models/ChatMessage.ts:25 | trimming an already trimmed string changes nothing, so stored content stays trimmed |
| JsString.Utf16Length | src/lib/errors.ts:139 | `length` counts UTF-16 code units: at least one and at most two per character |
| JsString.Utf16LengthOfBmp | src/lib/errors.ts:139 | without characters beyond U+FFFF, `length` is the number of characters |
| JsString.Utf16LengthAppend | src/lib/errors.ts:139 | a character beyond U+FFFF adds two code units, any other character one |
| JsString.ParseInt | src/app/api/chat/history/route.ts:25 | `parseInt` without a radix: skip leading white space, read an optional sign, let `0x`/`0X` select base 16, read the longest digit run, NaN when there is none; a blank string is NaN and a negative value needs a leading `-` |
| JsString.ParseIntSkipsWhitespace | src/app/api/chat/history/route.ts:25 | leading white space does not change what `parseInt` reads |
| JsString.ParseIntNegated | src/app/api/chat/history/route.ts:25 | a `-` in front of an unsigned numeral negates the value read, and NaN stays NaN |
| JsString.ParseIntDecimal | src/app/api/chat/history/route.ts:25 | `parseInt` reads a decimal numeral back as its value when it stands alone or is followed by non-digit text, except an `x` or `X` right after the numeral 0 (a hexadecimal prefix) |
| ChatMessageModel.ParseRole | src/lib/models/ChatMessage.ts:17-21 | the role enum accepts exactly "user" and "assistant", and the accepted role's name is the input |
| ChatMessageModel.Cast | src/lib/models/ChatMessage.ts:11-36 | a document is accepted iff its user id is non-empty, its role is in the enum and its content is not blank; the record is schema-valid, keeps user id, role and session id (possibly absent), has the trimmed content, and its timestamp defaults to the current time |
| Errors.NewApiError | src/lib/errors.ts:5-14 | a bare API error carries the status and code it was built with; the status defaults to 500 |
| Errors.ValidationError | src/lib/errors.ts:16-21 | status 400, code VALIDATION_ERROR, the given message |
| Errors.AuthenticationError | src/lib/errors.ts:23-28 | status 401, code AUTHENTICATION_ERROR; default message "Authentication required" |
| Errors.AuthorizationError | src/lib/errors.ts:30-35 | status 403, code AUTHORIZATION_ERROR; default message "Access denied" |
| Errors.NotFoundError | src/lib/errors.ts:37-42 | status 404, code NOT_FOUND_ERROR; default message "Resource not found" |
| Errors.ConflictError | src/lib/errors.ts:44-49 | status 409, code CONFLICT_ERROR; default message "Resource conflict" |
| Errors.DatabaseError | src/lib/errors.ts:51-56 | status 500, code DATABASE_ERROR; default message "Database operation failed" |
| Errors.ExternalServiceError | src/lib/errors.ts:58-63 | status 502, code EXTERNAL_SERVICE_ERROR; default message "External service error" |
| Errors.CodeDeterminesKind | src/lib/errors.ts:16-63 | no two error subclasses share a code, even where they share a status |
| Errors.HandleApiError | src/lib/errors.ts:68-101 | an API error gives its message, code and status, with the HTTP status equal to the body's; any other Error gives 500 INTERNAL_ERROR with its message; any other value gives 500 UNKNOWN_ERROR "An unexpected error occurred" |
| Errors.WithErrorHandler | src/lib/errors.ts:106-116 | the handler's own response when it returns; otherwise exactly `handleApiError` of what it threw, an error body whose status and code are the thrown API error's |
| Errors.ValidateRequired | src/lib/errors.ts:121-129 | rejects exactly undefined, null and blank strings, with "<field> is required"; every other value passes |
| Errors.EmailFormatIffPattern | src/lib/errors.ts:131-136 | the regular expression's language equals the test by parts: a non-empty local part before the only `@`, no white space, and a `.` in the domain that is neither its first nor its last character |
| Errors.ValidateEmail | src/lib/errors.ts:131-136 | passes exactly the strings the address pattern matches, and otherwise fails with "Invalid email format" |
| Errors.ValidatePassword | src/lib/errors.ts:138-142 | fails exactly for passwords whose JavaScript `length` (UTF-16 code units) is below 6, with the fixed message |
| ChatService.SessionFilter | src/lib/chat-service.ts:81-83 | only a non-empty session id restricts a query |
| ChatService.Filter | src/lib/chat-service.ts:89-90 | a query keeps every copy of each record it selects and nothing else |
| ChatService.DeletePartition | src/lib/chat-service.ts:134-140 | what delete keeps and what it counts make up the whole store; the kept records are exactly the unselected ones, and none of them is selected by the query again |
| ChatService.CountAfterAppend | src/lib/chat-service.ts:187-192 | appending a record raises a query's count by one exactly when the query selects that record |
| ChatService.InsertByTime | src/lib/chat-service.ts:91 | inserting into a newest-first sequence keeps it newest first and adds exactly that record |
| ChatService.SortNewestFirst | src/lib/chat-service.ts:91 | `sort({ timestamp: -1 })` gives a newest-first permutation of its input |
| ChatService.NewestSelected | src/lib/chat-service.ts:89-93 | find, sort and limit return a correct "newest selection": `min(limit, number selected)` records, each selected, taken from the store, newest first, and no selected record newer than the last one returned is left out |
| ChatService.PrefixHoldsNewer | src/lib/chat-service.ts:92 | cutting a newest-first sequence after `k` keeps every copy of each record newer than the `k`-th |
| ChatService.Reverse | src/lib/chat-service.ts:113 | `reverse` puts element `k` at position `n-1-k` |
| ChatService.ReverseIsChronological | src/lib/chat-service.ts:112-113 | reversing a newest-first sequence gives chronological order |
| ChatService.SessionsOf | src/lib/chat-service.ts:161-166 | a string is listed iff it is non-empty and is the session id of one of the user's records; no id is listed twice |
| ChatService.CheckMessage | src/lib/chat-service.ts:23-33 | the three checks pass iff user id, content after trimming and role are all valid; otherwise the first failing check (user id, then content, then role) names the error |
| ChatService.ChecksImplySchema | src/lib/chat-service.ts:35-43 | whatever passes the service's checks also passes the schema, so the save itself never rejects it |
| ChatService.ChatStore.SaveChatMessage | src/lib/chat-service.ts:15-51 | a connection failure comes first; then a ValidationError passes through unchanged; a failing save is a DatabaseError; success appends exactly one schema-valid record with the user id, role, session id, trimmed content and the current time; on any error the store is unchanged |
| ChatService.ChatStore.GetChatHistory | src/lib/chat-service.ts:56-101 | after the connection, an empty user id and then a limit outside 1..100 (default 50) are ValidationErrors; a failing query is a DatabaseError; success is the newest selection for the user, the non-empty session id and `before` |
| ChatService.ChatStore.GetRecentChatHistory | src/lib/chat-service.ts:106-118 | the history with limit 20 by default, reversed, so oldest first; its errors are the history's, unchanged |
| ChatService.ChatStore.DeleteChatHistory | src/lib/chat-service.ts:123-148 | removes exactly the records of the user (of the session, when one is given) and returns how many were removed; on any error nothing changes |
| ChatService.ChatStore.GetChatSessions | src/lib/chat-service.ts:153-174 | the user's distinct non-empty session ids, each once; errors as in the other queries |
| ChatService.ChatStore.GetMessageCount | src/lib/chat-service.ts:179-200 | the number of records the delete query for the same user and session would remove |
| UserService.FindByEmail | src/lib/user-service.ts:41 | finds a user with the email iff one exists |
| UserService.FindById | src/lib/user-service.ts:51 | finds a user with the id iff one exists |
| UserService.FindAfterInsert | src/lib/user-service.ts:21-28 | after inserting a user with a new email, that email finds the new user and every other email finds what it found before |
| UserService.IdIsPosition | src/lib/user-service.ts:48-51 | in a well-formed table, looking up an id finds the user at that position and nothing past the end |
| UserService.VerifyPassword | src/lib/user-service.ts:58-65 | the check passes only for the password whose hash is stored |
| UserService.VerifyCreatedPassword | src/lib/user-service.ts:58-65 | a user created with password `p` is verified by `p` and by no other password |
| UserService.UserTable.GetUserByEmail | src/lib/user-service.ts:38-46 | the user with that email, or none; a database failure is "Failed to retrieve user by email" |
| UserService.UserTable.GetUserById | src/lib/user-service.ts:48-56 | the user with that id, or none; a database failure is "Failed to retrieve user by ID" |
| UserService.UserTable.CreateUser | src/lib/user-service.ts:6-36 | a taken email is a ConflictError and leaves the table unchanged; any other failure is "Failed to create user"; success appends exactly one user with the name, the email and the hash of the password, returns its id, and the user can then be found by email and by id; emails stay unique |
| Middleware.Authorized | middleware.ts:9-51 | public routes pass; other protected routes pass exactly when a token is present; every other path passes; a request is refused only without a token |
| Middleware.AuthApiIsOpen | middleware.ts:30-37 | every path under `/api/auth/` is open, token or not |
| Middleware.PublicPathsAreOpen | middleware.ts:22-37 | the four public paths are open without a token |
| Middleware.ProtectedNeedsToken | middleware.ts:40-47 | a non-public path under a protected prefix is open exactly when a token is present |
| Middleware.PrefixIsNotSegmentAware | middleware.ts:40-42 | `/chatroom` and `/api/chat/history` are protected, because the prefix test ignores path segments |
| Middleware.OtherPathsAreOpen | middleware.ts:50 | a path under no protected prefix is open without a token |
| HistoryRoute.LimitParam | src/app/api/chat/history/route.ts:25 | an absent or empty limit parameter means 50 |
| HistoryRoute.LimitParamReadsNumeral | src/app/api/chat/history/route.ts:25-28 | a decimal limit is read as its value, and it is accepted exactly when it is between 1 and 100 |
| HistoryRoute.BeforeParam | src/app/api/chat/history/route.ts:30-36 | an absent or empty `before` sets no bound; any other value must parse as a date, or it is a ValidationError |
| HistoryRoute.Get | src/app/api/chat/history/route.ts:12-58 | 401, then the limit error, then the date error; any service failure is "Failed to retrieve chat history"; on 200 the messages are the newest selection for the user, the non-empty session id and `before`, `hasMore` holds iff a full page came back, and the sessions are the user's distinct session ids |
| HistoryRoute.NoMoreMeansComplete | src/app/api/chat/history/route.ts:49-53 | when `hasMore` is false, every record the query selects was returned, with all its copies |
| HistoryRoute.Delete | src/app/api/chat/history/route.ts:60-83 | 401, then "sessionId is required" for a missing or empty session id, then "Failed to delete chat history"; on 200 exactly that session's records of the user are removed and their number is returned; on any error the store is unchanged |
| RegisterRoute.ValidateRegistration | src/app/api/auth/register/route.ts:15-19 | the checks pass iff name, email and password are present and not blank, the email matches the pattern, and the password's `length` is at least 6; every failure is a 400 |
| RegisterRoute.RequiredFieldsFirst | src/app/api/auth/register/route.ts:15-17 | the presence checks come first, in the order name, email, password, and each failure names its field |
| RegisterRoute.EmailCheckedBeforePassword | src/app/api/auth/register/route.ts:18-19 | once all three fields are present, a malformed email is reported before a short password |
| RegisterRoute.Post | src/app/api/auth/register/route.ts:11-34 | a body that is not JSON is a 500; a failed check is a 400 naming the first failing check; a taken email is 409 "User already exists"; a failing connection or insert is a 500 "Failed to create user"; success is a 201 with the new user's id; the table changes only on success, by exactly one user |
| ChatRoute.UserMessageToSave | src/app/api/chat/route.ts:35-42 | only the last entry is saved, and only when its role is "user", with the request's session id |
| ChatRoute.Record | src/app/api/chat/route.ts:37-41 | the record a successful save appends is schema-valid and carries the trimmed content and the session id |
| ChatRoute.AssistantChecks | src/app/api/chat/route.ts:59-63 | an assistant reply passes the service's checks exactly when its text is not blank |
| ChatRoute.UserRecords | src/app/api/chat/route.ts:33-46 | the user step appends at most one record: the trimmed last message, and only a user message; a record is appended exactly when that message is a user message and its save succeeds |
| ChatRoute.AssistantRecords | src/app/api/chat/route.ts:55-69 | `onFinish` appends at most one record, the trimmed reply; it appends one exactly when the reply finished with non-blank text and the database is healthy |
| ChatRoute.SaveUserMessage | src/app/api/chat/route.ts:33-46 | the first `try` block appends exactly the user records and reports whether the save, if attempted, went through |
| ChatRoute.OnFinish | src/app/api/chat/route.ts:55-69 | the callback appends exactly the assistant records; a failed save is swallowed |
| ChatRoute.Post | src/app/api/chat/route.ts:15-78 | 401, 500 for a body that is not JSON, "Invalid messages format", "Messages array cannot be empty"; a failed user save is a 500 that changes nothing, before the model is asked; a failed generation is a 502 that keeps the user record; on 200 the store gains the user record and then the assistant record |
| ErrorHandlerHook.ClientErrorState | src/hooks/useErrorHandler.ts:15-34 | an Error and a string give their text with CLIENT_ERROR; anything else gives "An unexpected error occurred" with UNKNOWN_ERROR; no status is set |
| ErrorHandlerHook.ApiErrorState | src/hooks/useErrorHandler.ts:36-51 | the status is always the response's; a JSON body gives its `error` (or "API request failed") and its `code`; any other body gives API_ERROR and the message "Request failed with status " followed by the status in decimal, which `parseInt` reads back as the status |
| ErrorHandlerHook.ErrorHandler.constructor | src/hooks/useErrorHandler.ts:12-13 | no error, not loading |
| ErrorHandlerHook.ErrorHandler.HandleError | src/hooks/useErrorHandler.ts:15-34 | records the client error state and leaves the loading flag alone |
| ErrorHandlerHook.ErrorHandler.HandleApiError | src/hooks/useErrorHandler.ts:36-51 | records the API error state and leaves the loading flag alone |
| ErrorHandlerHook.ErrorHandler.ClearError | src/hooks/useErrorHandler.ts:53-55 | clears the error |
| ErrorHandlerHook.ErrorHandler.WithErrorHandling | src/hooks/useErrorHandler.ts:57-71 | the function runs while loading and with no error; afterwards the flag is down; a success returns the value with no error recorded; a failure returns nothing and records the state `handleError` gives |
| ChatInterface.IsLoading | src/components/ChatInterface.tsx:52 | a reply is loading iff the status is submitted or streaming, that is, neither ready nor errored |
| ChatInterface.Submission | src/components/ChatInterface.tsx:52-62 | something is sent iff no reply is loading and the input is not blank; what is sent is the trimmed input, non-empty and already trimmed |
| ChatInterface.ButtonMatchesSubmit | src/components/ChatInterface.tsx:322 | the send button is enabled exactly when submitting would send something |
| ChatInterface.Composer.SubmitMessage | src/components/ChatInterface.tsx:54-62 | sends the trimmed input and empties the box, or changes nothing; everything sent is trimmed and non-empty |
| ChatInterface.Composer.HandleKeyDown | src/components/ChatInterface.tsx:69-74 | only Enter with Ctrl or Meta held submits; any other key, plain Enter included, changes nothing |
| ChatInterface.Composer.HandleChange | src/components/ChatInterface.tsx:76-81 | the box holds what was typed, and nothing is sent |
| ChatInterface.IsToolMessagePart | src/components/ChatInterface.tsx:23-25 | true iff the type is `dynamic-tool` or starts with `tool-`; never `text` or `step-start` |
| ChatInterface.ToolPartNames | src/components/ChatInterface.tsx:23-25 | the tool part types are exactly `dynamic-tool` and `tool-NAME` for some NAME |
| ChatInterface.RenderPart | src/components/ChatInterface.tsx:181-269 | a "text" part shows its text and only it shows text; any other view comes from a tool part; only the current-time tool shows a result, the part's own output once it is available; running and error views match the part's state and name the current-time tool or the dynamic tool's name |
| ChatInterface.ToolPartDispatch | src/components/ChatInterface.tsx:190-267 | for every tool part: streaming or available input shows a running line, an error shows an error line, no state shows nothing, and a finished call shows its result only for `tool-getCurrentTime` |
| ChatInterface.NamedToolLabel | src/components/ChatInterface.tsx:242-268 | a `tool-NAME` part other than the current-time tool shows a running line labelled NAME while its input streams or is available, an error line labelled NAME with its error text on failure, and nothing once its output is there or without a state |
| ChatInterface.NonToolPartsShowNothing | src/components/ChatInterface.tsx:188-189 | `step-start` parts, and parts that are neither text nor a tool, show nothing |

## Left out

- The MongoDB connection cache, mongoose and the driver calls. Each service call is its effect on an in-memory sequence, plus a `Fault` input that says whether the connection or the operation fails.
- Concurrent requests. Each operation runs to completion before the next begins. In the application two simultaneous registrations with the same email can both pass `findOne` before either inserts, and both can then be stored unless the User schema declares `email` unique, whereas the model's `UserService.UserTable.Valid` keeps emails unique.
- Streaming and the AI agent. The model's reply is an input; the tokens of the stream and the agent's tools are not modelled.
- ChatRoute.OnFinish, ChatRoute.Post: `onFinish` runs after the stream has ended, after the 200 response was returned; the model runs it before returning, so other requests that interleave with a running stream are not modelled.
- The current-time tool. It depends on the clock and on time-zone formatting.
- UserService.UserTable.CreateUser: the User schema (`src/lib/models/User.ts` is not part of this model), with its validators, setters, indexes and pre-save hashing, is not modelled. A rejection by the schema appears only as `OperationFails`, so success at `Healthy` assumes the schema accepts the document; the application may reject, for example, an empty name or a malformed email that the model stores.
- UserService.VerifyCreatedPassword: "verified by no other password" rests on the injective hash. bcrypt reads only the first 72 bytes of a password, so two passwords that agree on those bytes both verify in the application.
- bcrypt. A password hash is the injective value `HashOf(password)`. `verifyPasswordDirect` and the "Failed to verify password" path of `verifyPassword` (a failing comparison) are not modelled.
- Date parsing of `before`. It is the `parseDate` parameter, with None for an invalid date. Timestamps are integers in milliseconds.
- ChatService.ChatStore.DeleteChatHistory: a failed `deleteMany` is modelled as removing nothing. MongoDB does not remove the documents atomically, so a reported failure can follow a partial or complete removal.
- HistoryRoute.Delete: its promise that an error leaves the store unchanged rests on the same all-or-nothing reading of a failed `deleteMany`.
- MongoDB ObjectIds. A user's id is the position at which the user was inserted, so a malformed id string cannot arise.
- The next-auth session. Authentication is an optional user id; the middleware's `matcher` configuration belongs to the framework.
- Rendering, markup, scrolling, textarea resizing, the typing indicator and console logging.
- React state updates are taken to apply at once. Batching and re-rendering are not modelled.
- The textarea's `disabled={isLoading}` is not modelled. The button rule and the submit guard are.
- Request bodies whose fields hold JSON values other than strings, and a hook `error` or `code` field that is not a string, are not representable. Missing fields are.
- The order of records with equal timestamps, and the order of the session list. The contracts do not depend on either.
- A `limit` that is NaN or not an integer, passed straight to the service. The history route rejects NaN before calling it.
- JsString.ParseInt: integers beyond 2^53 are read exactly, where JavaScript rounds them to the nearest number. The history route compares the value with bounds no larger than 100; ErrorHandlerHook.ApiErrorState's read-back of the status holds in JavaScript only for statuses below 2^53.
- ChatService.ChatStore.GetChatSessions: the order of the returned ids is first appearance in the store. The contract states only the set and the absence of duplicates, since the database guarantees no order.

=== FILE: chat_interface.dfy ===
/**
 * The chat screen's logic (`src/components/ChatInterface.tsx`): the input
 * box and when it sends, and what each part of a received message turns
 * into. Markup, styling and scrolling are not part of this model.
 */
module ChatInterface {
  import opened Wrappers
  import opened JsString

  /** The chat hook's `status`. */
  datatype ChatStatus = Submitted | Streaming | Ready | Errored

  /** `isLoading`: a request is on its way or its reply is streaming. */
  predicate IsLoading(status: ChatStatus)
    ensures IsLoading(status) <==> status != Ready && status != Errored
  {
    status == Submitted || status == Streaming
  }

  /** The text `submitMessage` would hand to `sendMessage`, if any: the
      trimmed input, unless it is empty or a reply is loading. */
  function Submission(input: string, status: ChatStatus): (r: Option<string>)
    ensures r.Some? <==> !IsLoading(status) && !IsBlank(input)
    ensures r.Some? ==> r.value == Trim(input) && r.value != "" && Trim(r.value) == r.value
  {
    var trimmed := Trim(input);
    if trimmed == [] || IsLoading(status) then None
    else
      TrimIdempotent(input);
      Some(trimmed)
  }

  /** The send button's `disabled={isLoading || !input.trim()}`. */
  predicate SubmitDisabled(status: ChatStatus, input: string) {
    IsLoading(status) || Trim(input) == []
  }

  /** The button is enabled exactly when submitting would send something. */
  lemma ButtonMatchesSubmit(status: ChatStatus, input: string)
    ensures !SubmitDisabled(status, input) <==> Submission(input, status).Some?
  {
  }

  /** The input box and what it has sent. */
  class Composer {
    var input: string
    /** The texts handed to `sendMessage`, oldest first. */
    var sent: seq<string>

    /** Everything sent is trimmed and not empty. */
    ghost predicate Valid()
      reads this
    {
      forall k :: 0 <= k < |sent| ==> sent[k] != "" && Trim(sent[k]) == sent[k]
    }

    constructor ()
      ensures Valid() && input == "" && sent == []
    {
      input := "";
      sent := [];
    }

    /** `submitMessage` (also what submitting the form does): sends the
        trimmed input and empties the box, or does nothing at all when
        the trimmed input is empty or a reply is loading. */
    method SubmitMessage(status: ChatStatus)
      requires Valid()
      modifies this
      ensures Valid()
      ensures Submission(old(input), status).None? ==> input == old(input) && sent == old(sent)
      ensures Submission(old(input), status).Some? ==>
        input == "" && sent == old(sent) + [Submission(old(input), status).value]
    {
      var trimmed := Trim(input);
      if trimmed == [] || IsLoading(status) {
        return;
      }
      TrimIdempotent(input);
      sent := sent + [trimmed];
      input := "";
    }

    /** `handleKeyDown`: Enter with Ctrl or Meta held submits; any other key,
        plain Enter included, leaves everything as it is (the text box then
        inserts the line break itself). */
    method HandleKeyDown(key: string, ctrlKey: bool, metaKey: bool, status: ChatStatus)
      requires Valid()
      modifies this
      ensures Valid()
      ensures !(key == "Enter" && (ctrlKey || metaKey)) ==> input == old(input) && sent == old(sent)
      ensures key == "Enter" && (ctrlKey || metaKey) && Submission(old(input), status).Some? ==>
        input == "" && sent == old(sent) + [Submission(old(input), status).value]
      ensures key == "Enter" && (ctrlKey || metaKey) && Submission(old(input), status).None? ==>
        input == old(input) && sent == old(sent)
    {
      if key == "Enter" && (ctrlKey || metaKey) {
        SubmitMessage(status);
      }
    }

    /** `handleChange`: the box holds what was typed; nothing is sent. */
    method HandleChange(value: string)
      modifies this
      ensures input == value && sent == old(sent)
    {
      input := value;
    }
  }

  // ---------------------------------------------------------------------
  // Message parts

  /** `isToolMessagePart`. */
  predicate IsToolMessagePart(partType: string)
    ensures IsToolMessagePart(partType) ==> partType != "text" && partType != "step-start"
  {
    assert StartsWith(partType, "tool-") ==> partType[0] == "tool-"[0];
    partType == "dynamic-tool" || StartsWith(partType, "tool-")
  }

  /** The tool part types are `dynamic-tool` and `tool-NAME` for any NAME. */
  lemma ToolPartNames(partType: string)
    ensures IsToolMessagePart(partType) <==> partType == "dynamic-tool" || exists name :: partType == "tool-" + name
  {
    if StartsWith(partType, "tool-") {
      assert partType == "tool-" + partType[5..];
    }
  }

  /** The states of a tool call. */
  datatype ToolState = InputStreaming | InputAvailable | OutputAvailable | OutputError

  /** A part of a received message, as far as the screen looks at it; the
      tool's output is kept as its JSON text. */
  datatype MessagePart = MessagePart(
    partType: string,
    text: string,
    state: Option<ToolState>,
    toolName: Option<string>,
    output: string,
    errorText: Option<string>)

  /** Which tool a progress or error line speaks of. */
  datatype ToolLabel =
    | CurrentTimeTool
    | DynamicTool(toolName: Option<string>)
      /** A `tool-NAME` part, labelled with NAME. */
    | NamedTool(name: string)

  /** What a part shows. */
  datatype PartView =
    | NoView
    | TextView(text: string)
    | RunningView(tool: ToolLabel)
    | ResultView(output: string)
    | ErrorView(tool: ToolLabel, errorText: Option<string>)

  /** The view of a tool part in `state`: running while its input arrives,
      an error line on failure, the result only where `showResult` says. */
  function ToolView(tool: ToolLabel, state: Option<ToolState>, output: string, errorText: Option<string>, showResult: bool)
    : PartView
  {
    match state
    case None => NoView
    case Some(InputStreaming) => RunningView(tool)
    case Some(InputAvailable) => RunningView(tool)
    case Some(OutputAvailable) => if showResult then ResultView(output) else NoView
    case Some(OutputError) => ErrorView(tool, errorText)
  }

  /** The switch over `part.type` that renders one part. */
  function RenderPart(part: MessagePart): (v: PartView)
    ensures v.TextView? ==> part.partType == "text"
    ensures !v.NoView? && !v.TextView? ==> IsToolMessagePart(part.partType)
    ensures v.ResultView? ==> part.partType == "tool-getCurrentTime"
    ensures v.RunningView? ==> part.state == Some(InputStreaming) || part.state == Some(InputAvailable)
    ensures v.ErrorView? ==> part.state == Some(OutputError) && v.errorText == part.errorText
    ensures part.partType == "text" ==> v == TextView(part.text)
    ensures v.ResultView? ==> part.state == Some(OutputAvailable) && v.output == part.output
    ensures part.partType == "tool-getCurrentTime" && (v.RunningView? || v.ErrorView?) ==> v.tool == CurrentTimeTool
    ensures part.partType == "dynamic-tool" && (v.RunningView? || v.ErrorView?) ==> v.tool == DynamicTool(part.toolName)
  {
    if part.partType == "text" then TextView(part.text)
    else if part.partType == "step-start" then NoView
    else if part.partType == "tool-getCurrentTime" then
      ToolView(CurrentTimeTool, part.state, part.output, part.errorText, true)
    else if part.partType == "dynamic-tool" then
      ToolView(DynamicTool(part.toolName), part.state, part.output, part.errorText, false)
    else if StartsWith(part.partType, "tool-") then
      ToolView(NamedTool(part.partType[5..]), part.state, part.output, part.errorText, false)
    else NoView
  }

  /** Every tool part: running while its input streams in or is ready, an
      error line on failure, nothing without a state; a finished call shows
      its result only for the current-time tool. */
  lemma ToolPartDispatch(part: MessagePart)
    requires IsToolMessagePart(part.partType)
    ensures part.state == Some(InputStreaming) || part.state == Some(InputAvailable) ==>
      RenderPart(part).RunningView?
    ensures part.state == Some(OutputError) ==> RenderPart(part).ErrorView?
    ensures part.state.None? ==> RenderPart(part) == NoView
    ensures part.state == Some(OutputAvailable) ==>
      (RenderPart(part).ResultView? <==> part.partType == "tool-getCurrentTime")
    ensures part.state == Some(OutputAvailable) && part.partType != "tool-getCurrentTime" ==>
      RenderPart(part) == NoView
  {
    assert part.partType != "text" && part.partType != "step-start" by {
      if part.partType != "dynamic-tool" {
        assert part.partType[..5] == "tool-";
        assert part.partType[1] == 'o' && "step-start"[1] == 't';
      }
    }
  }

  /** A `tool-NAME` part other than the current-time tool is labelled
      with NAME while it runs and when it fails, and shows nothing once its
      output is there or without a state. */
  lemma NamedToolLabel(name: string, part: MessagePart)
    requires part.partType == "tool-" + name && name != "getCurrentTime"
    ensures part.state == Some(InputStreaming) || part.state == Some(InputAvailable) ==>
      RenderPart(part) == RunningView(NamedTool(name))
    ensures part.state == Some(OutputError) ==> RenderPart(part) == ErrorView(NamedTool(name), part.errorText)
    ensures part.state == Some(OutputAvailable) || part.state.None? ==> RenderPart(part) == NoView
  {
    assert part.partType != "text" && part.partType != "step-start" && part.partType != "dynamic-tool" by {
      assert part.partType[..5] == "tool-";
      assert part.partType[0] == 't' && part.partType[1] == 'o';
      assert "step-start"[1] == 't' && "dynamic-tool"[0] == 'd';
    }
    assert part.partType[5..] == name;
    assert part.partType != "tool-getCurrentTime" by {
      assert "tool-getCurrentTime"[5..] == "getCurrentTime";
    }
    assert StartsWith(part.partType, "tool-");
  }

  /** `step-start` parts, and parts that are neither text nor a tool, show
      nothing. */
  lemma NonToolPartsShowNothing(part: MessagePart)
    requires part.partType != "text" && !IsToolMessagePart(part.partType)
    ensures RenderPart(part) == NoView
  {
  }
}

=== FILE: chat_message.dfy ===
/** The stored chat message and the schema that guards it
    (`src/lib/models/ChatMessage.ts`). */
module ChatMessageModel {
  import opened Wrappers
  import opened JsString

  /** The schema's `enum: ['user', 'assistant']`. */
  datatype Role = User | Assistant

  function RoleName(role: Role): string {
    match role
    case User => "user"
    case Assistant => "assistant"
  }

  /** The enum validator: accepts exactly the two names. */
  function ParseRole(s: string): (r: Option<Role>)
    ensures r.Some? <==> s == "user" || s == "assistant"
    ensures r.Some? ==> RoleName(r.value) == s
  {
    if s == "user" then Some(User)
    else if s == "assistant" then Some(Assistant)
    else None
  }

  /** `IChatMessage`; a timestamp is milliseconds since the epoch. */
  datatype ChatMessage = ChatMessage(
    userId: string,
    role: Role,
    content: string,
    timestamp: int,
    sessionId: Option<string>)

  /** What the schema guarantees of every stored record: a user id and a
      content are present (a required string may not be empty) and the
      content is trimmed. A missing session id is fine. */
  predicate SchemaValid(m: ChatMessage) {
    m.userId != "" && m.content != "" && Trim(m.content) == m.content
  }

  /** A document handed to the model's constructor, before casting. */
  datatype Draft = Draft(
    userId: Option<string>,
    role: Option<string>,
    content: Option<string>,
    timestamp: Option<int>,
    sessionId: Option<string>)

  /** What the schema makes of `d` when it is saved at time `now`: the
      `trim` setter runs, a missing timestamp defaults to `now`, then the
      `required` and `enum` validators run; None is a rejection. */
  function Cast(d: Draft, now: int): (r: Option<ChatMessage>)
    ensures r.Some? <==>
      && d.userId.Some? && d.userId.value != ""
      && d.role.Some? && (d.role.value == "user" || d.role.value == "assistant")
      && d.content.Some? && !IsBlank(d.content.value)
    ensures r.Some? ==> SchemaValid(r.value)
    ensures r.Some? ==>
      && r.value.userId == d.userId.value
      && RoleName(r.value.role) == d.role.value
      && r.value.content == Trim(d.content.value)
      && r.value.timestamp == d.timestamp.GetOr(now)
      && r.value.sessionId == d.sessionId
  {
    if d.userId.None? || d.userId.value == [] || d.role.None? || d.content.None? then None
    else
      var role := ParseRole(d.role.value);
      var content := Trim(d.content.value);
      if role.None? || content == [] then None
      else
        TrimIdempotent(d.content.value);
        Some(ChatMessage(d.userId.value, role.value, content, d.timestamp.GetOr(now), d.sessionId))
  }
}

=== FILE: chat_route.dfy ===
/**
 * The chat endpoint (`src/app/api/chat/route.ts`): checks the caller and
 * the body, persists the newest user message, asks the model for a reply
 * and, once the reply has finished, persists it too.
 */
module ChatRoute {
  import opened Wrappers
  import opened JsString
  import opened ChatMessageModel
  import opened Errors
  import opened Http
  import opened Database
  import opened ChatService

  /** One entry of the client's `messages` array. */
  datatype IncomingMessage = IncomingMessage(role: string, content: Option<string>)

  /** The request body: not JSON at all (the parser's error message), or
      an object whose `messages` is absent or not an array (None) or an
      array whose entries may be null (None). */
  datatype ChatRequest =
    | Malformed(parseError: string)
    | ChatBody(messages: Option<seq<Option<IncomingMessage>>>, sessionId: Option<string>)

  /** How the model's reply ends: generation fails, or it finishes with
      this text (what `onFinish` receives). */
  datatype Reply = ReplyFails | Finished(text: string)

  /** The checks before anything is saved pass. */
  predicate Accepted(userId: Option<string>, request: ChatRequest) {
    && Authenticated(userId)
    && request.ChatBody?
    && request.messages.Some?
    && |request.messages.value| > 0
  }

  /** The message to persist before generating: only the last entry of
      the array, and only when it is a user message. */
  function UserMessageToSave(request: ChatRequest): (r: Option<MessageData>)
    requires request.ChatBody? && request.messages.Some? && |request.messages.value| > 0
    ensures var last := request.messages.value[|request.messages.value| - 1];
      r.Some? <==> last.Some? && last.value.role == "user"
    ensures r.Some? ==>
      var last := request.messages.value[|request.messages.value| - 1];
      r.value == MessageData("user", last.value.content, request.sessionId)
  {
    var last := request.messages.value[|request.messages.value| - 1];
    if last.Some? && last.value.role == "user" then
      Some(MessageData("user", last.value.content, request.sessionId))
    else None
  }

  /** Saving `data` for `userId` at a healthy database goes through. */
  predicate SaveSucceeds(userId: string, data: MessageData, fault: Fault) {
    fault.Healthy? && CheckMessage(userId, data).Ok?
  }

  /** The record a successful save of `data` at time `now` appends. */
  function Record(userId: string, data: MessageData, now: int): (m: ChatMessage)
    requires CheckMessage(userId, data).Ok?
    ensures SchemaValid(m) && m.userId == userId && RoleName(m.role) == data.role
    ensures m.content == Trim(data.content.value) && m.timestamp == now && m.sessionId == data.sessionId
  {
    ChecksImplySchema(userId, data, now);
    ChatMessage(userId, CheckMessage(userId, data).value, Trim(data.content.value), now, data.sessionId)
  }

  /** An assistant message passes the service's checks exactly when its
      content is not blank. */
  lemma AssistantChecks(userId: string, data: MessageData)
    requires userId != "" && data.role == "assistant" && data.content.Some?
    ensures CheckMessage(userId, data).Ok? <==> !IsBlank(data.content.value)
    ensures CheckMessage(userId, data).Ok? ==> CheckMessage(userId, data).value == Assistant
  {
    assert data.role != "user" by {
      assert data.role[0] != "user"[0];
    }
  }

  /** The user-message save passes or is not attempted. */
  predicate UserSaveOk(userId: Option<string>, request: ChatRequest, saveFault: Fault)
    requires Accepted(userId, request)
  {
    var data := UserMessageToSave(request);
    data.None? || SaveSucceeds(userId.value, data.value, saveFault)
  }

  /** What the user-message step appends: nothing or the last message. */
  function UserRecords(userId: Option<string>, request: ChatRequest, saveFault: Fault, now: int)
    : (r: seq<ChatMessage>)
    requires Accepted(userId, request)
    ensures |r| <= 1
    ensures r != [] ==>
      var last := request.messages.value[|request.messages.value| - 1];
      && last.Some? && last.value.role == "user" && last.value.content.Some?
      && r[0].role == User && r[0].content == Trim(last.value.content.value)
      && r[0].userId == userId.value && r[0].sessionId == request.sessionId && r[0].timestamp == now
    ensures |r| == 1 <==>
      UserMessageToSave(request).Some? && SaveSucceeds(userId.value, UserMessageToSave(request).value, saveFault)
  {
    var data := UserMessageToSave(request);
    if data.Some? && SaveSucceeds(userId.value, data.value, saveFault) then [Record(userId.value, data.value, now)]
    else []
  }

  /** The assistant reply `onFinish` saves: the final text, when there is
      any, as an assistant message of the same session. */
  function AssistantRecords(
    userId: Option<string>, request: ChatRequest, reply: Reply, replyFault: Fault, finishedAt: int)
    : (r: seq<ChatMessage>)
    requires Accepted(userId, request)
    ensures |r| <= 1
    ensures r != [] ==>
      && reply.Finished? && reply.text != "" && !IsBlank(reply.text)
      && r[0].role == Assistant && r[0].content == Trim(reply.text)
      && r[0].userId == userId.value && r[0].sessionId == request.sessionId && r[0].timestamp == finishedAt
    ensures |r| == 1 <==> reply.Finished? && !IsBlank(reply.text) && replyFault.Healthy?
  {
    if reply.ReplyFails? || reply.text == [] then []
    else
      var data := MessageData("assistant", Some(reply.text), request.sessionId);
      AssistantChecks(userId.value, data);
      if SaveSucceeds(userId.value, data, replyFault) then [Record(userId.value, data, finishedAt)] else []
  }

  /** The first `try` block of the handler: saves the last message when it
      is a user message, and reports whether that save (if attempted)
      went through. */
  method SaveUserMessage(store: ChatStore, userId: Option<string>, request: ChatRequest, now: int, saveFault: Fault)
    returns (saved: bool)
    requires store.Valid() && Accepted(userId, request)
    modifies store
    ensures store.Valid()
    ensures saved == UserSaveOk(userId, request, saveFault)
    ensures store.messages == old(store.messages) + UserRecords(userId, request, saveFault, now)
  {
    var data := UserMessageToSave(request);
    if data.None? {
      saved := true;
      assert UserRecords(userId, request, saveFault, now) == [];
    } else {
      var r := store.SaveChatMessage(userId.value, data.value, now, saveFault);
      saved := r.Ok?;
      if r.Ok? {
        assert SaveSucceeds(userId.value, data.value, saveFault);
        assert [r.value] == UserRecords(userId, request, saveFault, now);
      } else {
        assert !SaveSucceeds(userId.value, data.value, saveFault);
        assert UserRecords(userId, request, saveFault, now) == [];
      }
    }
  }

  /** The `onFinish` callback: saves a non-empty reply text as an assistant
      message, and swallows a failure to do so. */
  method OnFinish(
    store: ChatStore, userId: Option<string>, request: ChatRequest, reply: Reply, finishedAt: int, replyFault: Fault)
    requires store.Valid() && Accepted(userId, request)
    modifies store
    ensures store.Valid()
    ensures store.messages == old(store.messages) + AssistantRecords(userId, request, reply, replyFault, finishedAt)
  {
    if reply.Finished? && reply.text != [] {
      var data := MessageData("assistant", Some(reply.text), request.sessionId);
      var _ := store.SaveChatMessage(userId.value, data, finishedAt, replyFault);
    }
  }

  /** `POST`: authentication, a JSON body, a `messages` array, a non-empty
      one, in that order; then the last message is saved when it is a user
      message, and any failure there, the service's own validation
      included, is a database error and ends the request before the model
      is asked. A failure to generate is an external-service error. Once the
      reply finishes its text is saved when non-empty; a failure of that
      save is ignored and the reply stream is returned regardless. */
  method Post(
    store: ChatStore, userId: Option<string>, request: ChatRequest, now: int, saveFault: Fault,
    reply: Reply, finishedAt: int, replyFault: Fault)
    returns (r: Response)
    requires store.Valid()
    modifies store
    ensures store.Valid()
    ensures !Authenticated(userId) ==>
      r.status == 401 && r == HandleApiError(ThrownApiError(AuthenticationError("Authentication required")))
    ensures Authenticated(userId) && request.Malformed? ==>
      r.status == 500 && r == HandleApiError(ThrownError(request.parseError))
    ensures Authenticated(userId) && request.ChatBody? && request.messages.None? ==>
      r.status == 400 && r == HandleApiError(ThrownApiError(ValidationError("Invalid messages format")))
    ensures Authenticated(userId) && request.ChatBody? && request.messages == Some([]) ==>
      r.status == 400 && r == HandleApiError(ThrownApiError(ValidationError("Messages array cannot be empty")))
    ensures !Accepted(userId, request) ==> store.messages == old(store.messages)
    ensures Accepted(userId, request) && !UserSaveOk(userId, request, saveFault) ==>
      && r.status == 500
      && r == HandleApiError(ThrownApiError(DatabaseError("Failed to save message to database")))
      && store.messages == old(store.messages)
    ensures Accepted(userId, request) && UserSaveOk(userId, request, saveFault) && reply.ReplyFails? ==>
      && r.status == 502
      && r == HandleApiError(ThrownApiError(ExternalServiceError("Failed to generate AI response")))
      && store.messages == old(store.messages) + UserRecords(userId, request, saveFault, now)
    ensures r.status == 200 <==>
      Accepted(userId, request) && UserSaveOk(userId, request, saveFault) && reply.Finished?
    ensures r.status == 200 ==>
      && r.body == ReplyStream
      && store.messages == old(store.messages) + UserRecords(userId, request, saveFault, now)
                             + AssistantRecords(userId, request, reply, replyFault, finishedAt)
  {
    var outcome: Outcome<Response>;
    if !Authenticated(userId) {
      outcome := Threw(ThrownApiError(AuthenticationError("Authentication required")));
    } else if request.Malformed? {
      outcome := Threw(ThrownError(request.parseError));
    } else if request.messages.None? {
      outcome := Threw(ThrownApiError(ValidationError("Invalid messages format")));
    } else if |request.messages.value| == 0 {
      outcome := Threw(ThrownApiError(ValidationError("Messages array cannot be empty")));
    } else {
      var saved := SaveUserMessage(store, userId, request, now, saveFault);
      if !saved {
        outcome := Threw(ThrownApiError(DatabaseError("Failed to save message to database")));
      } else if reply.ReplyFails? {
        outcome := Threw(ThrownApiError(ExternalServiceError("Failed to generate AI response")));
      } else {
        OnFinish(store, userId, request, reply, finishedAt, replyFault);
        outcome := Returned(Response(200, ReplyStream));
      }
    }
    r := WithErrorHandler(outcome);
  }
}

=== FILE: chat_service.dfy ===
/**
 * The chat message store (`src/lib/chat-service.ts`): the messages
 * collection is a sequence of records held by a `ChatStore` object; saving
 * appends, deleting removes, and the four queries are functions of it.
 */
module ChatService {
  import opened Wrappers
  import opened JsString
  import opened ChatMessageModel
  import opened Errors
  import opened Database

  /** `ChatMessageData` as it arrives at run time: the role is checked by
      the service, so any string may come in, and the content may be absent. */
  datatype MessageData = MessageData(role: string, content: Option<string>, sessionId: Option<string>)

  /** The options of `getChatHistory`; `before` is a time in milliseconds. */
  datatype HistoryOptions = HistoryOptions(limit: Option<int>, sessionId: Option<string>, before: Option<int>)

  const DefaultHistoryLimit := 50
  const DefaultRecentLimit := 20
  const MaxHistoryLimit := 100

  function Min(a: int, b: int): int {
    if a <= b then a else b
  }

  // ---------------------------------------------------------------------
  // Queries as functions of the stored sequence

  /** `if (sessionId) query.sessionId = sessionId`: only a non-empty id
      restricts a query. */
  function SessionFilter(sessionId: Option<string>): (r: Option<string>)
    ensures r.Some? <==> sessionId.Some? && sessionId.value != ""
    ensures r.Some? ==> r == sessionId
  {
    if sessionId.Some? && sessionId.value != [] then sessionId else None
  }

  /** The query `{ userId, sessionId?, timestamp: { $lt: before }? }`. */
  predicate Selects(m: ChatMessage, userId: string, session: Option<string>, before: Option<int>) {
    && m.userId == userId
    && (session.Some? ==> m.sessionId == session)
    && (before.Some? ==> m.timestamp < before.value)
  }

  /** The records of `s` that satisfy `p`, in stored order. */
  function Filter(s: seq<ChatMessage>, p: ChatMessage -> bool): (r: seq<ChatMessage>)
    ensures forall m {:trigger multiset(r)[m]} :: multiset(r)[m] == if p(m) then multiset(s)[m] else 0
    ensures forall k :: 0 <= k < |r| ==> p(r[k])
  {
    if s == [] then []
    else
      var rest := Filter(s[..|s| - 1], p);
      var last := s[|s| - 1];
      assert s == s[..|s| - 1] + [last];
      if p(last) then rest + [last] else rest
  }

  function Selected(s: seq<ChatMessage>, userId: string, session: Option<string>, before: Option<int>): seq<ChatMessage> {
    Filter(s, m => Selects(m, userId, session, before))
  }

  /** `countDocuments(query)` and the `deletedCount` of `deleteMany(query)`. */
  function CountSelected(s: seq<ChatMessage>, userId: string, session: Option<string>): nat {
    |Selected(s, userId, session, None)|
  }

  /** What `deleteMany(query)` leaves behind. */
  function Unselected(s: seq<ChatMessage>, userId: string, session: Option<string>): seq<ChatMessage> {
    Filter(s, m => !Selects(m, userId, session, None))
  }

  /** The records removed and the records kept make up the whole store:
      the kept ones are exactly those the query does not select, with their
      multiplicities, so what is counted is what is removed. */
  lemma {:induction false} DeletePartition(s: seq<ChatMessage>, userId: string, session: Option<string>)
    ensures |Unselected(s, userId, session)| + CountSelected(s, userId, session) == |s|
    ensures forall m {:trigger multiset(Unselected(s, userId, session))[m]} ::
      multiset(Unselected(s, userId, session))[m] ==
        if Selects(m, userId, session, None) then 0 else multiset(s)[m]
    ensures CountSelected(Unselected(s, userId, session), userId, session) == 0
  {
    var kept := Unselected(s, userId, session);
    var removed := Selected(s, userId, session, None);
    assert multiset(kept) + multiset(removed) == multiset(s) by {
      forall m ensures (multiset(kept) + multiset(removed))[m] == multiset(s)[m] {
        assert multiset(kept)[m] == if !Selects(m, userId, session, None) then multiset(s)[m] else 0;
        assert multiset(removed)[m] == if Selects(m, userId, session, None) then multiset(s)[m] else 0;
      }
    }
    assert |multiset(kept)| + |multiset(removed)| == |multiset(s)|;
    var again := Selected(kept, userId, session, None);
    assert multiset(again) == multiset{};
  }

  /** Appending one record raises the count of a query by one exactly when
      the query selects that record. */
  lemma CountAfterAppend(s: seq<ChatMessage>, m: ChatMessage, userId: string, session: Option<string>)
    ensures CountSelected(s + [m], userId, session) ==
      CountSelected(s, userId, session) + (if Selects(m, userId, session, None) then 1 else 0)
  {
    assert (s + [m])[..|s + [m]| - 1] == s;
  }

  /** Timestamps never increase along `s`. */
  predicate NewestFirst(s: seq<ChatMessage>) {
    forall i, j :: 0 <= i < j < |s| ==> s[i].timestamp >= s[j].timestamp
  }

  /** Timestamps never decrease along `s`. */
  predicate OldestFirst(s: seq<ChatMessage>) {
    forall i, j :: 0 <= i < j < |s| ==> s[i].timestamp <= s[j].timestamp
  }

  function InsertByTime(m: ChatMessage, s: seq<ChatMessage>): (r: seq<ChatMessage>)
    requires NewestFirst(s)
    ensures NewestFirst(r) && multiset(r) == multiset(s) + multiset{m}
  {
    if s == [] || m.timestamp >= s[0].timestamp then [m] + s
    else
      var tail := InsertByTime(m, s[1..]);
      InsertBehindHead(m, s, tail);
      [s[0]] + tail
  }

  /** The recursive case of `InsertByTime`: a record older than the head
      goes behind it, and the head stays newest. */
  lemma InsertBehindHead(m: ChatMessage, s: seq<ChatMessage>, tail: seq<ChatMessage>)
    requires NewestFirst(s) && s != [] && m.timestamp < s[0].timestamp
    requires NewestFirst(tail) && multiset(tail) == multiset(s[1..]) + multiset{m}
    ensures NewestFirst([s[0]] + tail) && multiset([s[0]] + tail) == multiset(s) + multiset{m}
  {
    assert s == [s[0]] + s[1..];
    forall k | 0 <= k < |tail| ensures s[0].timestamp >= tail[k].timestamp {
      assert tail[k] in multiset(tail);
      if tail[k] != m {
        assert tail[k] in multiset(s[1..]);
        var j :| 0 <= j < |s[1..]| && s[1..][j] == tail[k];
        assert s[j + 1] == tail[k];
      }
    }
  }

  /** `.sort({ timestamp: -1 })`: the same records, newest first. */
  function SortNewestFirst(s: seq<ChatMessage>): (r: seq<ChatMessage>)
    ensures NewestFirst(r) && multiset(r) == multiset(s)
  {
    if s == [] then []
    else
      assert s == [s[0]] + s[1..];
      InsertByTime(s[0], SortNewestFirst(s[1..]))
  }

  /** `r` is a correct answer to "the `limit` newest records of `s` the
      query selects, newest first": no more than `limit` of them, and fewer
      only when fewer exist; each selected; taken from `s`; and no selected
      record is left out that is newer than the oldest one returned (when
      fewer than `limit` come back, none is left out at all). */
  ghost predicate IsNewestSelection(
    r: seq<ChatMessage>, s: seq<ChatMessage>,
    userId: string, session: Option<string>, before: Option<int>, limit: nat)
  {
    && |r| == Min(limit, |Selected(s, userId, session, before)|)
    && (forall k :: 0 <= k < |r| ==> Selects(r[k], userId, session, before))
    && NewestFirst(r)
    && multiset(r) <= multiset(s)
    && (forall m {:trigger multiset(r)[m]} ::
          Selects(m, userId, session, before) && (|r| < limit || (|r| > 0 && m.timestamp > r[|r| - 1].timestamp))
          ==> multiset(r)[m] == multiset(s)[m])
  }

  /** In a newest-first sequence, the first `k` records hold every copy of
      each record newer than the `k`-th. */
  lemma PrefixHoldsNewer(t: seq<ChatMessage>, k: nat, m: ChatMessage)
    requires NewestFirst(t) && 0 < k <= |t| && m.timestamp > t[k - 1].timestamp
    ensures multiset(t[..k])[m] == multiset(t)[m]
  {
    assert t == t[..k] + t[k..];
    assert forall j :: 0 <= j < |t[k..]| ==> t[k..][j].timestamp <= t[k - 1].timestamp;
    assert m !in t[k..];
  }

  /** What `find(query).sort({ timestamp: -1 }).limit(limit)` returns. */
  function NewestSelected(
    s: seq<ChatMessage>, userId: string, session: Option<string>, before: Option<int>, limit: nat)
    : (r: seq<ChatMessage>)
    ensures IsNewestSelection(r, s, userId, session, before, limit)
  {
    var matching := Selected(s, userId, session, before);
    var sorted := SortNewestFirst(matching);
    var n := Min(limit, |sorted|);
    TakeNewest(s, matching, sorted, n, userId, session, before, limit);
    sorted[..n]
  }

  /** Taking the first `n` of the sorted selection keeps each of the
      properties of a newest selection. */
  lemma TakeNewest(
    s: seq<ChatMessage>, matching: seq<ChatMessage>, sorted: seq<ChatMessage>, n: nat,
    userId: string, session: Option<string>, before: Option<int>, limit: nat)
    requires forall m {:trigger multiset(matching)[m]} ::
      multiset(matching)[m] == if Selects(m, userId, session, before) then multiset(s)[m] else 0
    requires NewestFirst(sorted) && multiset(sorted) == multiset(matching)
    requires n == Min(limit, |sorted|)
    ensures var r := sorted[..n];
      && (forall k :: 0 <= k < |r| ==> Selects(r[k], userId, session, before))
      && NewestFirst(r)
      && multiset(r) <= multiset(s)
      && (forall m {:trigger multiset(r)[m]} ::
            Selects(m, userId, session, before) && (|r| < limit || (|r| > 0 && m.timestamp > r[|r| - 1].timestamp))
            ==> multiset(r)[m] == multiset(s)[m])
  {
    var r := sorted[..n];
    TakenAreSelected(s, matching, sorted, n, userId, session, before);
    forall m | Selects(m, userId, session, before) && (|r| < limit || (|r| > 0 && m.timestamp > r[|r| - 1].timestamp))
      ensures multiset(r)[m] == multiset(s)[m]
    {
      if |r| < limit {
        assert r == sorted;
      } else {
        PrefixHoldsNewer(sorted, n, m);
      }
    }
  }

  /** The records taken are selected ones, taken from `s`. */
  lemma TakenAreSelected(
    s: seq<ChatMessage>, matching: seq<ChatMessage>, sorted: seq<ChatMessage>, n: nat,
    userId: string, session: Option<string>, before: Option<int>)
    requires forall m {:trigger multiset(matching)[m]} ::
      multiset(matching)[m] == if Selects(m, userId, session, before) then multiset(s)[m] else 0
    requires multiset(sorted) == multiset(matching) && n <= |sorted|
    ensures forall k :: 0 <= k < n ==> Selects(sorted[..n][k], userId, session, before)
    ensures multiset(sorted[..n]) <= multiset(s)
  {
    var r := sorted[..n];
    assert sorted == r + sorted[n..];
    assert multiset(r) <= multiset(matching);
    forall k | 0 <= k < |r| ensures Selects(r[k], userId, session, before) {
      assert r[k] in multiset(matching);
    }
    forall m ensures multiset(r)[m] <= multiset(s)[m] {
      assert multiset(r)[m] <= multiset(matching)[m];
    }
  }

  /** `messages.reverse()`. */
  function Reverse(s: seq<ChatMessage>): (r: seq<ChatMessage>)
    ensures |r| == |s| && forall k :: 0 <= k < |s| ==> r[k] == s[|s| - 1 - k]
  {
    if s == [] then [] else Reverse(s[1..]) + [s[0]]
  }

  /** Reversing a newest-first sequence gives chronological order. */
  lemma ReverseIsChronological(s: seq<ChatMessage>)
    requires NewestFirst(s)
    ensures OldestFirst(Reverse(s))
  {
  }

  /** The distinct non-empty session ids of `userId`'s records, in order of
      first appearance. */
  function SessionsOf(s: seq<ChatMessage>, userId: string): (r: seq<string>)
    ensures forall x {:trigger x in r} :: x in r <==>
      x != "" && exists k :: 0 <= k < |s| && s[k].userId == userId && s[k].sessionId == Some(x)
    ensures forall i, j :: 0 <= i < j < |r| ==> r[i] != r[j]
  {
    if s == [] then []
    else
      var init := s[..|s| - 1];
      var prev := SessionsOf(init, userId);
      var m := s[|s| - 1];
      assert forall k :: 0 <= k < |init| ==> init[k] == s[k];
      if m.userId == userId && m.sessionId.Some? && m.sessionId.value != [] && m.sessionId.value !in prev
      then prev + [m.sessionId.value]
      else prev
  }

  // ---------------------------------------------------------------------
  // The validation chain of `saveChatMessage`

  /** The three checks of `saveChatMessage`, in order: the user id, the
      content after trimming, the role. */
  function CheckMessage(userId: string, data: MessageData): (r: Result<Role>)
    ensures r.Ok? <==>
      && userId != ""
      && data.content.Some? && !IsBlank(data.content.value)
      && (data.role == "user" || data.role == "assistant")
    ensures r.Ok? ==> RoleName(r.value) == data.role
    ensures userId == "" ==> r == Err(ValidationError("User ID is required"))
    ensures userId != "" && (data.content.None? || IsBlank(data.content.value)) ==>
      r == Err(ValidationError("Message content cannot be empty"))
    ensures (userId != "" && data.content.Some? && !IsBlank(data.content.value)
             && data.role != "user" && data.role != "assistant") ==>
      r == Err(ValidationError("Invalid message role"))
  {
    if userId == [] then Err(ValidationError("User ID is required"))
    else if data.content.None? || data.content.value == [] || Trim(data.content.value) == [] then
      Err(ValidationError("Message content cannot be empty"))
    else
      match ParseRole(data.role)
      case None => Err(ValidationError("Invalid message role"))
      case Some(role) => Ok(role)
  }

  /** What passes the service's checks also passes the schema, so the
      schema never rejects a save. */
  lemma ChecksImplySchema(userId: string, data: MessageData, now: int)
    requires CheckMessage(userId, data).Ok?
    ensures Cast(Draft(Some(userId), Some(data.role), data.content, Some(now), data.sessionId), now).Some?
  {
  }

  // ---------------------------------------------------------------------
  // The store

  class ChatStore {
    var messages: seq<ChatMessage>

    /** Every stored record satisfies the schema. */
    ghost predicate Valid()
      reads this
    {
      forall k :: 0 <= k < |messages| ==> SchemaValid(messages[k])
    }

    constructor ()
      ensures Valid() && messages == []
    {
      messages := [];
    }

    /** `saveChatMessage`: a connection failure comes first; then the
        checks, whose ValidationError passes through unchanged; a failure
        of the save itself becomes a DatabaseError. A successful save
        appends exactly one record, with the trimmed content and the time
        of the call; nothing else changes. */
    method SaveChatMessage(userId: string, data: MessageData, now: int, fault: Fault)
      returns (r: Result<ChatMessage>)
      requires Valid()
      modifies this
      ensures Valid()
      ensures fault == ConnectFails ==> r == Err(DatabaseError("Failed to save chat message"))
      ensures fault != ConnectFails && CheckMessage(userId, data).Err? ==> r == Err(CheckMessage(userId, data).error)
      ensures fault == OperationFails && CheckMessage(userId, data).Ok? ==>
        r == Err(DatabaseError("Failed to save chat message"))
      ensures r.Ok? <==> fault.Healthy? && CheckMessage(userId, data).Ok?
      ensures r.Ok? ==>
        && r.value == ChatMessage(userId, CheckMessage(userId, data).value, Trim(data.content.value), now, data.sessionId)
        && SchemaValid(r.value)
        && messages == old(messages) + [r.value]
      ensures r.Err? ==> messages == old(messages)
    {
      if fault == ConnectFails {
        return Err(DatabaseError("Failed to save chat message"));
      }
      var checked := CheckMessage(userId, data);
      if checked.Err? {
        return Err(checked.error);
      }
      ChecksImplySchema(userId, data, now);
      var doc := Cast(Draft(Some(userId), Some(data.role), data.content, Some(now), data.sessionId), now);
      if fault == OperationFails {
        return Err(DatabaseError("Failed to save chat message"));
      }
      messages := messages + [doc.value];
      r := Ok(doc.value);
    }

    /** `getChatHistory`: after the connection, the user id and a limit in
        1..100 (50 when none is given) are required; the answer is the
        `limit` newest records of the user, restricted to a non-empty
        session id and to times strictly before `before` when given. */
    function GetChatHistory(userId: string, options: HistoryOptions, fault: Fault): (r: Result<seq<ChatMessage>>)
      reads this
      ensures fault == ConnectFails ==> r == Err(DatabaseError("Failed to retrieve chat history"))
      ensures fault != ConnectFails && userId == "" ==> r == Err(ValidationError("User ID is required"))
      ensures fault != ConnectFails && userId != "" && !(1 <= options.limit.GetOr(DefaultHistoryLimit) <= MaxHistoryLimit) ==>
        r == Err(ValidationError("Limit must be between 1 and 100"))
      ensures fault.OperationFails? && userId != "" && 1 <= options.limit.GetOr(DefaultHistoryLimit) <= MaxHistoryLimit ==>
        r == Err(DatabaseError("Failed to retrieve chat history"))
      ensures r.Ok? <==>
        fault.Healthy? && userId != "" && 1 <= options.limit.GetOr(DefaultHistoryLimit) <= MaxHistoryLimit
      ensures r.Ok? ==> IsNewestSelection(r.value, messages, userId,
        SessionFilter(options.sessionId), options.before, options.limit.GetOr(DefaultHistoryLimit))
    {
      if fault == ConnectFails then Err(DatabaseError("Failed to retrieve chat history"))
      else if userId == [] then Err(ValidationError("User ID is required"))
      else
        var limit := options.limit.GetOr(DefaultHistoryLimit);
        if limit < 1 || limit > MaxHistoryLimit then Err(ValidationError("Limit must be between 1 and 100"))
        else if fault == OperationFails then Err(DatabaseError("Failed to retrieve chat history"))
        else Ok(NewestSelected(messages, userId, SessionFilter(options.sessionId), options.before, limit))
    }

    /** `getRecentChatHistory`: the history with the given limit (20 when
        none is given) and session, in chronological order; errors pass
        through unchanged. */
    function GetRecentChatHistory(userId: string, limit: Option<int>, sessionId: Option<string>, fault: Fault)
      : (r: Result<seq<ChatMessage>>)
      reads this
      ensures var h := GetChatHistory(userId, HistoryOptions(Some(limit.GetOr(DefaultRecentLimit)), sessionId, None), fault);
        && (r.Err? <==> h.Err?)
        && (r.Err? ==> r.error == h.error)
        && (r.Ok? ==> |r.value| == |h.value| && forall k :: 0 <= k < |h.value| ==> r.value[k] == h.value[|h.value| - 1 - k])
      ensures r.Ok? ==> OldestFirst(r.value)
    {
      match GetChatHistory(userId, HistoryOptions(Some(limit.GetOr(DefaultRecentLimit)), sessionId, None), fault)
      case Err(e) => Err(e)
      case Ok(h) =>
        ReverseIsChronological(h);
        Ok(Reverse(h))
    }

    /** `deleteChatHistory`: removes exactly the user's records, only those
        of the session when a non-empty session id is given, and reports how
        many went; on any error nothing is removed. */
    method DeleteChatHistory(userId: string, sessionId: Option<string>, fault: Fault) returns (r: Result<nat>)
      requires Valid()
      modifies this
      ensures Valid()
      ensures fault == ConnectFails ==> r == Err(DatabaseError("Failed to delete chat history"))
      ensures fault != ConnectFails && userId == "" ==> r == Err(ValidationError("User ID is required"))
      ensures fault == OperationFails && userId != "" ==> r == Err(DatabaseError("Failed to delete chat history"))
      ensures r.Ok? <==> fault.Healthy? && userId != ""
      ensures r.Ok? ==>
        && messages == Unselected(old(messages), userId, SessionFilter(sessionId))
        && r.value == CountSelected(old(messages), userId, SessionFilter(sessionId))
        && |messages| == |old(messages)| - r.value
      ensures r.Err? ==> messages == old(messages)
    {
      if fault == ConnectFails {
        return Err(DatabaseError("Failed to delete chat history"));
      }
      if userId == [] {
        return Err(ValidationError("User ID is required"));
      }
      if fault == OperationFails {
        return Err(DatabaseError("Failed to delete chat history"));
      }
      var session := SessionFilter(sessionId);
      DeletePartition(messages, userId, session);
      var kept := Unselected(messages, userId, session);
      forall k | 0 <= k < |kept| ensures SchemaValid(kept[k]) {
        assert kept[k] in multiset(kept);
        assert kept[k] in multiset(messages);
      }
      r := Ok(CountSelected(messages, userId, session));
      messages := kept;
    }

    /** `getChatSessions`: the distinct session ids of the user's records,
        never a missing or empty one, each once. */
    function GetChatSessions(userId: string, fault: Fault): (r: Result<seq<string>>)
      reads this
      ensures fault == ConnectFails ==> r == Err(DatabaseError("Failed to retrieve chat sessions"))
      ensures fault != ConnectFails && userId == "" ==> r == Err(ValidationError("User ID is required"))
      ensures fault.OperationFails? && userId != "" ==> r == Err(DatabaseError("Failed to retrieve chat sessions"))
      ensures r.Ok? <==> fault.Healthy? && userId != ""
      ensures r.Ok? ==> forall x {:trigger x in r.value} :: x in r.value <==>
        x != "" && exists k :: 0 <= k < |messages| && messages[k].userId == userId && messages[k].sessionId == Some(x)
      ensures r.Ok? ==> forall i, j :: 0 <= i < j < |r.value| ==> r.value[i] != r.value[j]
    {
      if fault == ConnectFails then Err(DatabaseError("Failed to retrieve chat sessions"))
      else if userId == [] then Err(ValidationError("User ID is required"))
      else if fault == OperationFails then Err(DatabaseError("Failed to retrieve chat sessions"))
      else Ok(SessionsOf(messages, userId))
    }

    /** `getMessageCount`: the number of records the same user/session query
        as `deleteChatHistory` selects. */
    function GetMessageCount(userId: string, sessionId: Option<string>, fault: Fault): (r: Result<nat>)
      reads this
      ensures fault == ConnectFails ==> r == Err(DatabaseError("Failed to count messages"))
      ensures fault != ConnectFails && userId == "" ==> r == Err(ValidationError("User ID is required"))
      ensures fault.OperationFails? && userId != "" ==> r == Err(DatabaseError("Failed to count messages"))
      ensures r.Ok? <==> fault.Healthy? && userId != ""
      ensures r.Ok? ==> r.value == |messages| - |Unselected(messages, userId, SessionFilter(sessionId))|
    {
      if fault == ConnectFails then Err(DatabaseError("Failed to count messages"))
      else if userId == [] then Err(ValidationError("User ID is required"))
      else if fault == OperationFails then Err(DatabaseError("Failed to count messages"))
      else
        DeletePartition(messages, userId, SessionFilter(sessionId));
        Ok(CountSelected(messages, userId, SessionFilter(sessionId)))
    }
  }
}

=== FILE: database.dfy ===
/** The database as the services see it: every service call first awaits
    `connectToDatabase()` and then issues its driver operations (one for
    most calls; `findOne` and then `save` for `createUser`); any of them can
    fail. Which one does is an input of the model. */
module Database {

  datatype Fault =
    | Healthy
      /** `connectToDatabase()` rejects: before any validation has run. */
    | ConnectFails
      /** A driver operation rejects after the connection was made and the
          arguments were checked. In `createUser` a failing `findOne` gives
          the same error as a failing connection and is `ConnectFails`;
          only a failing `save` is `OperationFails`. */
    | OperationFails
}

=== FILE: error_handler_hook.dfy ===
/**
 * The client-side error state (`src/hooks/useErrorHandler.ts`): two state
 * fields, the error shown to the user and a loading flag, and the
 * callbacks that set, clear and wrap them. A React state setter is taken
 * to update its field at once.
 */
module ErrorHandlerHook {
  import opened Wrappers
  import opened JsString

  /** `ErrorState`: a message, and optionally a code and an HTTP status. */
  datatype ErrorState = ErrorState(message: string, code: Option<string>, status: Option<int>)

  /** What a client-side `catch` can receive: an `Error`, a string, or any
      other value. */
  datatype ClientThrown = ErrorObject(message: string) | ErrorString(text: string) | OtherThrown

  /** The state `handleError` records for a thrown value. */
  function ClientErrorState(thrown: ClientThrown): (s: ErrorState)
    ensures s.status.None?
    ensures thrown.ErrorObject? ==> s == ErrorState(thrown.message, Some("CLIENT_ERROR"), None)
    ensures thrown.ErrorString? ==> s == ErrorState(thrown.text, Some("CLIENT_ERROR"), None)
    ensures thrown.OtherThrown? ==> s == ErrorState("An unexpected error occurred", Some("UNKNOWN_ERROR"), None)
    ensures s.code == Some("CLIENT_ERROR") || s.code == Some("UNKNOWN_ERROR")
  {
    match thrown
    case ErrorObject(message) => ErrorState(message, Some("CLIENT_ERROR"), None)
    case ErrorString(text) => ErrorState(text, Some("CLIENT_ERROR"), None)
    case OtherThrown => ErrorState("An unexpected error occurred", Some("UNKNOWN_ERROR"), None)
  }

  /** The body of a failed response: not JSON, or JSON whose `error` and
      `code` fields are each absent or a string. */
  datatype ErrorBody = Unparseable | ErrorData(error: Option<string>, code: Option<string>)

  /** A fetch response; its status is a non-negative integer. */
  datatype FetchResponse = FetchResponse(status: nat, body: ErrorBody)

  const StatusMessagePrefix := "Request failed with status "

  /** The state `handleAPIError` records for a failed response: the status
      always; from a JSON body its `error` when that is a non-empty string
      (else a fixed message) and its `code`; from any other body the prefix
      followed by the status in decimal, which reads back as the status,
      and the code `API_ERROR`. */
  function ApiErrorState(response: FetchResponse): (s: ErrorState)
    ensures s.status == Some(response.status)
    ensures response.body.ErrorData? ==> s.code == response.body.code
    ensures response.body.ErrorData? && response.body.error.Some? && response.body.error.value != "" ==>
      s.message == response.body.error.value
    ensures response.body.ErrorData? && (response.body.error.None? || response.body.error.value == "") ==>
      s.message == "API request failed"
    ensures response.body.Unparseable? ==>
      && s.code == Some("API_ERROR")
      && s.message == StatusMessagePrefix + Decimal(response.status)
      && ParseInt(s.message[|StatusMessagePrefix|..]) == Int(response.status)
  {
    match response.body
    case ErrorData(error, code) =>
      var message := if error.Some? && error.value != [] then error.value else "API request failed";
      ErrorState(message, code, Some(response.status))
    case Unparseable =>
      var message := StatusMessagePrefix + Decimal(response.status);
      assert message[|StatusMessagePrefix|..] == Decimal(response.status) + [];
      ParseIntDecimal(response.status, []);
      ErrorState(message, Some("API_ERROR"), Some(response.status))
  }

  /** How the wrapped asynchronous function ends. */
  datatype Attempt<T> = Resolves(value: T) | Rejects(thrown: ClientThrown)

  class ErrorHandler {
    var error: Option<ErrorState>
    var isLoading: bool

    /** The initial state: no error, not loading. */
    constructor ()
      ensures error.None? && !isLoading
    {
      error := None;
      isLoading := false;
    }

    /** `handleError`: records the state for a thrown value. */
    method HandleError(thrown: ClientThrown)
      modifies this
      ensures error == Some(ClientErrorState(thrown))
      ensures isLoading == old(isLoading)
    {
      error := Some(ClientErrorState(thrown));
    }

    /** `handleAPIError`: records the state for a failed response. */
    method HandleApiError(response: FetchResponse)
      modifies this
      ensures error == Some(ApiErrorState(response))
      ensures isLoading == old(isLoading)
    {
      error := Some(ApiErrorState(response));
    }

    /** `clearError`. */
    method ClearError()
      modifies this
      ensures error.None?
      ensures isLoading == old(isLoading)
    {
      error := None;
    }

    /** `withErrorHandling`: sets the loading flag and clears the error
        before the function runs (the ghost outputs report the state it
        runs in); afterwards the flag is down again, and either the
        function's value is returned with no error recorded, or nothing is
        returned and the error is what `handleError` records. */
    method WithErrorHandling<T>(attempt: Attempt<T>)
      returns (r: Option<T>, ghost loadingWhileRunning: bool, ghost errorWhileRunning: Option<ErrorState>)
      modifies this
      ensures loadingWhileRunning && errorWhileRunning.None?
      ensures !isLoading
      ensures attempt.Resolves? ==> r == Some(attempt.value) && error.None?
      ensures attempt.Rejects? ==> r.None? && error == Some(ClientErrorState(attempt.thrown))
    {
      isLoading := true;
      ClearError();
      loadingWhileRunning, errorWhileRunning := isLoading, error;
      match attempt {
        case Resolves(value) =>
          r := Some(value);
        case Rejects(thrown) =>
          HandleError(thrown);
          r := None;
      }
      isLoading := false;
    }
  }
}

=== FILE: errors.dfy ===
/**
 * The API error taxonomy, the mapping of anything thrown to a JSON error
 * response, and the request validators (`src/lib/errors.ts`).
 * A thrown exception is a value: validators and services return a
 * `Result`, a route handler an `Outcome`.
 */
module Errors {
  import opened Wrappers
  import opened JsString
  import opened Http

  /** The `APIError` class and its seven subclasses. A bare `APIError`
      carries the status and code it was constructed with. */
  datatype ErrorKind =
    | Base(status: int, code: Option<string>)
    | Validation(field: Option<string>)
    | Authentication
    | Authorization
    | NotFound
    | Conflict
    | Database
    | ExternalService

  datatype ApiError = ApiError(kind: ErrorKind, message: string) {

    /** The `status` field each subclass's constructor passes to `super`. */
    function Status(): int {
      match kind
      case Base(status, _) => status
      case Validation(_) => 400
      case Authentication => 401
      case Authorization => 403
      case NotFound => 404
      case Conflict => 409
      case Database => 500
      case ExternalService => 502
    }

    /** The `code` field each subclass's constructor passes to `super`. */
    function Code(): Option<string> {
      match kind
      case Base(_, code) => code
      case Validation(_) => Some("VALIDATION_ERROR")
      case Authentication => Some("AUTHENTICATION_ERROR")
      case Authorization => Some("AUTHORIZATION_ERROR")
      case NotFound => Some("NOT_FOUND_ERROR")
      case Conflict => Some("CONFLICT_ERROR")
      case Database => Some("DATABASE_ERROR")
      case ExternalService => Some("EXTERNAL_SERVICE_ERROR")
    }
  }

  // The constructors, with the source's default arguments.

  function NewApiError(message: string, status: int := 500, code: Option<string> := None): (e: ApiError)
    ensures e.Status() == status && e.Code() == code && e.message == message
  {
    ApiError(Base(status, code), message)
  }

  function ValidationError(message: string, field: Option<string> := None): (e: ApiError)
    ensures e.Status() == 400 && e.Code() == Some("VALIDATION_ERROR") && e.message == message
  {
    ApiError(Validation(field), message)
  }

  function AuthenticationError(message: string := "Authentication required"): (e: ApiError)
    ensures e.Status() == 401 && e.Code() == Some("AUTHENTICATION_ERROR") && e.message == message
  {
    ApiError(Authentication, message)
  }

  function AuthorizationError(message: string := "Access denied"): (e: ApiError)
    ensures e.Status() == 403 && e.Code() == Some("AUTHORIZATION_ERROR") && e.message == message
  {
    ApiError(Authorization, message)
  }

  function NotFoundError(message: string := "Resource not found"): (e: ApiError)
    ensures e.Status() == 404 && e.Code() == Some("NOT_FOUND_ERROR") && e.message == message
  {
    ApiError(NotFound, message)
  }

  function ConflictError(message: string := "Resource conflict"): (e: ApiError)
    ensures e.Status() == 409 && e.Code() == Some("CONFLICT_ERROR") && e.message == message
  {
    ApiError(Conflict, message)
  }

  function DatabaseError(message: string := "Database operation failed"): (e: ApiError)
    ensures e.Status() == 500 && e.Code() == Some("DATABASE_ERROR") && e.message == message
  {
    ApiError(Database, message)
  }

  function ExternalServiceError(message: string := "External service error"): (e: ApiError)
    ensures e.Status() == 502 && e.Code() == Some("EXTERNAL_SERVICE_ERROR") && e.message == message
  {
    ApiError(ExternalService, message)
  }

  /** Apart from a bare `APIError`, the code names the kind: no two
      subclasses share a code, even where they share a status (500). */
  lemma CodeDeterminesKind(a: ApiError, b: ApiError)
    requires !a.kind.Base? && !b.kind.Base?
    requires a.Code() == b.Code()
    ensures a.kind.Validation? == b.kind.Validation?
    ensures !a.kind.Validation? ==> a.kind == b.kind
  {
  }

  // ---------------------------------------------------------------------
  // Thrown values and `handleAPIError`

  /** What a `catch` can receive: an `APIError`, another `Error`, or any
      other value. */
  datatype Thrown =
    | ThrownApiError(apiError: ApiError)
    | ThrownError(message: string)
    | ThrownValue

  /** `handleAPIError`: the JSON error response for a thrown value. The HTTP
      status always equals the `status` in the body. */
  function HandleApiError(thrown: Thrown): (r: Response)
    ensures r.body.ErrorJson? && r.status == r.body.status
    ensures thrown.ThrownApiError? ==>
      r.body == ErrorJson(thrown.apiError.message, thrown.apiError.Code(), thrown.apiError.Status())
    ensures thrown.ThrownError? ==> r.status == 500 && r.body == ErrorJson(thrown.message, Some("INTERNAL_ERROR"), 500)
    ensures thrown.ThrownValue? ==>
      r.status == 500 && r.body == ErrorJson("An unexpected error occurred", Some("UNKNOWN_ERROR"), 500)
  {
    match thrown
    case ThrownApiError(e) => Response(e.Status(), ErrorJson(e.message, e.Code(), e.Status()))
    case ThrownError(message) => Response(500, ErrorJson(message, Some("INTERNAL_ERROR"), 500))
    case ThrownValue => Response(500, ErrorJson("An unexpected error occurred", Some("UNKNOWN_ERROR"), 500))
  }

  /** How a route handler ends: it returns a value or throws. */
  datatype Outcome<+T> = Returned(value: T) | Threw(thrown: Thrown)

  /** `withErrorHandler(handler)` applied to one request: the handler's own
      response, or the error response for what it threw. */
  function WithErrorHandler(handled: Outcome<Response>): (r: Response)
    ensures handled.Returned? ==> r == handled.value
    ensures handled.Threw? ==> r == HandleApiError(handled.thrown)
    ensures handled.Threw? ==> r.body.ErrorJson? && r.status == r.body.status
    ensures handled.Threw? && handled.thrown.ThrownApiError? ==>
      r.status == handled.thrown.apiError.Status() && r.body.code == handled.thrown.apiError.Code()
      && r.body.error == handled.thrown.apiError.message
  {
    match handled
    case Returned(response) => response
    case Threw(thrown) => HandleApiError(thrown)
  }

  /** A call that can throw only an `APIError`. */
  datatype Result<+T> = Ok(value: T) | Err(error: ApiError) {
    predicate IsFailure() { Err? }
    function PropagateFailure<U>(): Result<U> requires Err? { Err(error) }
    function Extract(): T requires Ok? { value }
  }

  // ---------------------------------------------------------------------
  // Validators

  /** A JSON value as far as `validateRequired` looks at it. */
  datatype JsValue = Undefined | Null | Str(s: string) | OtherValue

  /** `validateRequired`: rejects exactly `undefined`, `null` and strings
      that are empty or all white space; every other value passes. */
  function ValidateRequired(value: JsValue, fieldName: string): (r: Result<()>)
    ensures r.Err? <==> value.Undefined? || value.Null? || (value.Str? && IsBlank(value.s))
    ensures r.Err? ==> r.error == ValidationError(fieldName + " is required")
  {
    if value.Undefined? || value.Null? || (value.Str? && Trim(value.s) == "") then
      Err(ValidationError(fieldName + " is required"))
    else Ok(())
  }

  /** `[^\s@]`: a character the address pattern accepts in each of its runs. */
  predicate IsAddressChar(c: char) {
    !IsWhitespace(c) && c != '@'
  }

  predicate AllAddressChars(s: string) {
    forall k :: 0 <= k < |s| ==> IsAddressChar(s[k])
  }

  /** The language of `/^[^\s@]+@[^\s@]+\.[^\s@]+$/`: a non-empty run, an
      `@` at `i`, a non-empty run, a `.` at `j`, a non-empty run. */
  ghost predicate MatchesEmailPattern(s: string) {
    exists i, j ::
      && 0 < i && i + 1 < j && j + 1 < |s| && s[i] == '@' && s[j] == '.'
      && AllAddressChars(s[..i]) && AllAddressChars(s[i + 1..j]) && AllAddressChars(s[j + 1..])
  }

  /** The index of the first `c` in `s`. */
  function IndexOf(s: string, c: char): (r: Option<nat>)
    ensures r.Some? ==> r.value < |s| && s[r.value] == c && forall k :: 0 <= k < r.value ==> s[k] != c
    ensures r.None? ==> forall k :: 0 <= k < |s| ==> s[k] != c
  {
    if s == [] then None
    else if s[0] == c then Some(0)
    else match IndexOf(s[1..], c)
      case None => None
      case Some(k) => Some(k + 1)
  }

  /** The address test, by parts: a non-empty local part before the first
      `@`; no white space or further `@` anywhere; and a `.` in the domain
      part that is neither its first nor its last character. */
  predicate EmailFormatOk(s: string) {
    match IndexOf(s, '@')
    case None => false
    case Some(i) =>
      var local, domain := s[..i], s[i + 1..];
      && |local| > 0 && AllAddressChars(local) && AllAddressChars(domain)
      && exists j :: 0 < j < |domain| - 1 && domain[j] == '.'
  }

  /** The test by parts accepts exactly the language of the pattern. */
  lemma EmailFormatIffPattern(s: string)
    ensures EmailFormatOk(s) <==> MatchesEmailPattern(s)
  {
    if EmailFormatOk(s) {
      EmailFormatMatches(s);
    }
    if MatchesEmailPattern(s) {
      var i, j :| && 0 < i && i + 1 < j && j + 1 < |s| && s[i] == '@' && s[j] == '.'
        && AllAddressChars(s[..i]) && AllAddressChars(s[i + 1..j]) && AllAddressChars(s[j + 1..]);
      PatternPassesFormat(s, i, j);
    }
  }

  lemma EmailFormatMatches(s: string)
    requires EmailFormatOk(s)
    ensures MatchesEmailPattern(s)
  {
    var i := IndexOf(s, '@').value;
    var domain := s[i + 1..];
    var j' :| 0 < j' < |domain| - 1 && domain[j'] == '.';
    var j := i + 1 + j';
    assert s[j] == '.';
    assert s[i + 1..j] == domain[..j'];
    assert s[j + 1..] == domain[j' + 1..];
    assert AllAddressChars(s[i + 1..j]);
    assert AllAddressChars(s[j + 1..]);
  }

  lemma PatternPassesFormat(s: string, i: nat, j: nat)
    requires 0 < i && i + 1 < j && j + 1 < |s| && s[i] == '@' && s[j] == '.'
    requires AllAddressChars(s[..i]) && AllAddressChars(s[i + 1..j]) && AllAddressChars(s[j + 1..])
    ensures EmailFormatOk(s)
  {
    assert forall k :: 0 <= k < i ==> s[k] == s[..i][k];
    assert IndexOf(s, '@') == Some(i);
    var domain := s[i + 1..];
    forall k | 0 <= k < |domain| ensures IsAddressChar(domain[k]) {
      if k < j - (i + 1) {
        assert domain[k] == s[i + 1..j][k];
      } else if k > j - (i + 1) {
        assert domain[k] == s[j + 1..][k - (j - i)];
      }
    }
    assert domain[j - (i + 1)] == '.';
  }

  /** `validateEmail`: passes exactly the strings the pattern matches. */
  function ValidateEmail(email: string): (r: Result<()>)
    ensures r.Ok? <==> MatchesEmailPattern(email)
    ensures r.Err? ==> r.error == ValidationError("Invalid email format")
  {
    EmailFormatIffPattern(email);
    if EmailFormatOk(email) then Ok(()) else Err(ValidationError("Invalid email format"))
  }

  const MinPasswordLength := 6

  /** `validatePassword`: rejects passwords whose `length` (in UTF-16 code
      units) is below six. */
  function ValidatePassword(password: string): (r: Result<()>)
    ensures r.Ok? <==> Utf16Length(password) >= MinPasswordLength
    ensures r.Err? ==> r.error == ValidationError("Password must be at least 6 characters long")
  {
    if Utf16Length(password) < MinPasswordLength then
      Err(ValidationError("Password must be at least 6 characters long"))
    else Ok(())
  }
}

=== FILE: history_route.dfy ===
/**
 * The chat history endpoint (`src/app/api/chat/history/route.ts`): GET
 * reads a page of the signed-in user's history, DELETE clears one of their
 * sessions. Both run inside `withErrorHandler`, so whatever they throw
 * becomes a JSON error response.
 */
module HistoryRoute {
  import opened Wrappers
  import opened JsString
  import opened ChatMessageModel
  import opened Errors
  import opened Http
  import opened Database
  import opened ChatService

  /** The query string: each parameter is absent or a string. */
  datatype SearchParams = SearchParams(sessionId: Option<string>, limit: Option<string>, before: Option<string>)

  /** `limitParam ? parseInt(limitParam) : 50`. */
  function LimitParam(limit: Option<string>): (r: NumberValue)
    ensures (limit.None? || limit.value == "") ==> r == Int(DefaultHistoryLimit)
  {
    if limit.None? || limit.value == [] then Int(DefaultHistoryLimit) else ParseInt(limit.value)
  }

  /** A limit outside 1..100, or NaN, is refused. */
  predicate ValidLimit(n: NumberValue) {
    n.Int? && 1 <= n.value <= MaxHistoryLimit
  }

  /** A decimal numeral given as the limit is read as its value, so any of
      "1" through "100" is accepted as that many. */
  lemma LimitParamReadsNumeral(n: nat)
    ensures LimitParam(Some(Decimal(n))) == Int(n)
    ensures ValidLimit(LimitParam(Some(Decimal(n)))) <==> 1 <= n <= MaxHistoryLimit
  {
    ParseIntDecimal(n, []);
    assert Decimal(n) + [] == Decimal(n);
  }

  /** The `before` parameter: an absent or empty one sets no bound; any
      other must be a date, read by `parseDate` as milliseconds since the
      epoch (None standing for an invalid date). */
  function BeforeParam(before: Option<string>, parseDate: string -> Option<int>): (r: Result<Option<int>>)
    ensures (before.None? || before.value == "") ==> r == Ok(None)
    ensures before.Some? && before.value != "" ==>
      if parseDate(before.value).None? then r == Err(ValidationError("Invalid date format for 'before' parameter"))
      else r == Ok(parseDate(before.value))
  {
    if before.None? || before.value == [] then Ok(None)
    else match parseDate(before.value)
      case None => Err(ValidationError("Invalid date format for 'before' parameter"))
      case Some(t) => Ok(Some(t))
  }

  /** The body of the GET handler, up to what it returns or throws. */
  function GetHandler(
    store: ChatStore, userId: Option<string>, params: SearchParams,
    parseDate: string -> Option<int>, historyFault: Fault, sessionsFault: Fault): Outcome<Response>
    reads store
  {
    if !Authenticated(userId) then Threw(ThrownApiError(AuthenticationError("Authentication required")))
    else
      var limit := LimitParam(params.limit);
      if !ValidLimit(limit) then Threw(ThrownApiError(ValidationError("Limit must be between 1 and 100")))
      else match BeforeParam(params.before, parseDate)
        case Err(e) => Threw(ThrownApiError(e))
        case Ok(before) =>
          var history := store.GetChatHistory(userId.value,
            HistoryOptions(Some(limit.value), SessionFilter(params.sessionId), before), historyFault);
          var sessions := store.GetChatSessions(userId.value, sessionsFault);
          if history.Err? || sessions.Err? then
            Threw(ThrownApiError(DatabaseError("Failed to retrieve chat history")))
          else
            Returned(Response(200, HistoryJson(history.value, sessions.value, |history.value| == limit.value)))
  }

  /** `GET`: the checks run in order (authentication, limit, `before`) and
      the first that fails decides the response; a failure of either service
      call, whatever it was, is reported as a database error. On success the
      messages are the `limit` newest of the user's records that the
      session and `before` select, newest first; the sessions are the
      user's distinct session ids; and `hasMore` says that a full page came
      back. */
  function Get(
    store: ChatStore, userId: Option<string>, params: SearchParams,
    parseDate: string -> Option<int>, historyFault: Fault, sessionsFault: Fault): (r: Response)
    reads store
    ensures !Authenticated(userId) ==>
      r.status == 401 && r == HandleApiError(ThrownApiError(AuthenticationError("Authentication required")))
    ensures Authenticated(userId) && !ValidLimit(LimitParam(params.limit)) ==>
      r.status == 400 && r == HandleApiError(ThrownApiError(ValidationError("Limit must be between 1 and 100")))
    ensures Authenticated(userId) && ValidLimit(LimitParam(params.limit)) && BeforeParam(params.before, parseDate).Err? ==>
      r.status == 400 &&
      r == HandleApiError(ThrownApiError(ValidationError("Invalid date format for 'before' parameter")))
    ensures (Authenticated(userId) && ValidLimit(LimitParam(params.limit)) && BeforeParam(params.before, parseDate).Ok?
             && (!historyFault.Healthy? || !sessionsFault.Healthy?)) ==>
      r.status == 500 && r == HandleApiError(ThrownApiError(DatabaseError("Failed to retrieve chat history")))
    ensures r.status == 200 <==>
      Authenticated(userId) && ValidLimit(LimitParam(params.limit)) && BeforeParam(params.before, parseDate).Ok?
      && historyFault.Healthy? && sessionsFault.Healthy?
    ensures r.status == 200 ==>
      var limit := LimitParam(params.limit).value;
      && r.body.HistoryJson?
      && IsNewestSelection(r.body.messages, store.messages, userId.value,
           SessionFilter(params.sessionId), BeforeParam(params.before, parseDate).value, limit)
      && (r.body.hasMore <==> |r.body.messages| == limit)
      && (forall x {:trigger x in r.body.sessions} :: x in r.body.sessions <==>
            x != "" && exists k :: 0 <= k < |store.messages| && store.messages[k].userId == userId.value
                                   && store.messages[k].sessionId == Some(x))
      && (forall i, j :: 0 <= i < j < |r.body.sessions| ==> r.body.sessions[i] != r.body.sessions[j])
  {
    WithErrorHandler(GetHandler(store, userId, params, parseDate, historyFault, sessionsFault))
  }

  /** When `hasMore` is false the page is the whole of the selection: every
      record the query selects was returned, with all its copies. */
  lemma NoMoreMeansComplete(
    store: ChatStore, userId: Option<string>, params: SearchParams,
    parseDate: string -> Option<int>, m: ChatMessage)
    requires Get(store, userId, params, parseDate, Healthy, Healthy).status == 200
    requires !Get(store, userId, params, parseDate, Healthy, Healthy).body.hasMore
    requires Selects(m, userId.value, SessionFilter(params.sessionId), BeforeParam(params.before, parseDate).value)
    ensures multiset(Get(store, userId, params, parseDate, Healthy, Healthy).body.messages)[m] ==
      multiset(store.messages)[m]
  {
  }

  /** `DELETE`: authentication first, then a non-empty `sessionId` is
      required; a failure of the service is reported as a database error.
      On success exactly that session's records of the user are removed
      and their number is returned; on any error the store is unchanged. */
  method Delete(store: ChatStore, userId: Option<string>, sessionId: Option<string>, fault: Fault)
    returns (r: Response)
    requires store.Valid()
    modifies store
    ensures store.Valid()
    ensures !Authenticated(userId) ==>
      r.status == 401 && r == HandleApiError(ThrownApiError(AuthenticationError("Authentication required")))
    ensures Authenticated(userId) && (sessionId.None? || sessionId.value == "") ==>
      r.status == 400 && r == HandleApiError(ThrownApiError(ValidationError("sessionId is required")))
    ensures Authenticated(userId) && sessionId.Some? && sessionId.value != "" && !fault.Healthy? ==>
      r.status == 500 && r == HandleApiError(ThrownApiError(DatabaseError("Failed to delete chat history")))
    ensures r.status == 200 <==> Authenticated(userId) && sessionId.Some? && sessionId.value != "" && fault.Healthy?
    ensures r.status == 200 ==>
      && store.messages == Unselected(old(store.messages), userId.value, sessionId)
      && r.body == DeletedJson(CountSelected(old(store.messages), userId.value, sessionId))
    ensures r.status != 200 ==> store.messages == old(store.messages)
  {
    var outcome: Outcome<Response>;
    if !Authenticated(userId) {
      outcome := Threw(ThrownApiError(AuthenticationError("Authentication required")));
    } else if sessionId.None? || sessionId.value == [] {
      outcome := Threw(ThrownApiError(ValidationError("sessionId is required")));
    } else {
      var deleted := store.DeleteChatHistory(userId.value, sessionId, fault);
      if deleted.Ok? {
        outcome := Returned(Response(200, DeletedJson(deleted.value)));
      } else {
        outcome := Threw(ThrownApiError(DatabaseError("Failed to delete chat history")));
      }
    }
    r := WithErrorHandler(outcome);
  }
}

=== FILE: http.dfy ===
/** The JSON responses the API routes send, as values. */
module Http {
  import opened Wrappers
  import opened ChatMessageModel

  /** The bodies the routes put on the wire. */
  datatype Json =
    | ErrorJson(error: string, code: Option<string>, status: int)
    | HistoryJson(messages: seq<ChatMessage>, sessions: seq<string>, hasMore: bool)
    | DeletedJson(deletedCount: nat)
    | CreatedJson(message: string, userId: nat)
      /** The streamed assistant reply; its tokens are not modelled. */
    | ReplyStream

  datatype Response = Response(status: int, body: Json)

  /** The session's user id as a route sees it: `!session?.user?.id`
      fails exactly for a missing or empty id. */
  predicate Authenticated(userId: Option<string>) {
    userId.Some? && userId.value != ""
  }
}

=== FILE: js_string.dfy ===
/**
 * The pieces of JavaScript string semantics the application relies on:
 * the white-space class (`\s`, `trim`), `startsWith`, and `parseInt`
 * without a radix (ECMA-262, sections 22.1.3.32 and 19.2.5).
 */
module JsString {

  /** ECMAScript WhiteSpace or LineTerminator: the characters a regular
      expression's `\s` matches and that `trim` and `parseInt` skip. */
  predicate IsWhitespace(c: char) {
    || c == '\t' || c == '\n' || c == '\U{000B}' || c == '\U{000C}' || c == '\r'
    || c == ' ' || c == '\U{00A0}' || c == '\U{1680}'
    || ('\U{2000}' <= c <= '\U{200A}')
    || c == '\U{2028}' || c == '\U{2029}' || c == '\U{202F}' || c == '\U{205F}'
    || c == '\U{3000}' || c == '\U{FEFF}'
  }

  /** Every character is white space (the empty string included). */
  predicate IsBlank(s: string) {
    forall k :: 0 <= k < |s| ==> IsWhitespace(s[k])
  }

  /** `s.trimStart()`: the suffix left after the leading white space. */
  function TrimStart(s: string): (r: string)
    ensures |r| <= |s| && r == s[|s| - |r|..]
    ensures IsBlank(s[..|s| - |r|])
    ensures r == [] || !IsWhitespace(r[0])
  {
    if |s| > 0 && IsWhitespace(s[0]) then
      var r := TrimStart(s[1..]);
      TrimStartStep(s, s[1..], r);
      r
    else s
  }

  /** One step of `TrimStart`: dropping a leading white-space character
      keeps what the rest promises. */
  lemma TrimStartStep(s: string, tail: string, r: string)
    requires |s| > 0 && IsWhitespace(s[0]) && tail == s[1..]
    requires |r| <= |tail| && r == tail[|tail| - |r|..] && IsBlank(tail[..|tail| - |r|])
    ensures |r| <= |s| && r == s[|s| - |r|..]
    ensures IsBlank(s[..|s| - |r|])
  {
    assert s[..|s| - |r|] == [s[0]] + tail[..|tail| - |r|];
    BlankConcat([s[0]], tail[..|tail| - |r|]);
  }

  /** `s.trimEnd()`: the prefix left before the trailing white space. */
  function TrimEnd(s: string): (r: string)
    ensures |r| <= |s| && r == s[..|r|]
    ensures IsBlank(s[|r|..])
    ensures r == [] || !IsWhitespace(r[|r| - 1])
  {
    if |s| > 0 && IsWhitespace(s[|s| - 1]) then
      var r := TrimEnd(s[..|s| - 1]);
      assert s[|r|..] == s[..|s| - 1][|r|..] + [s[|s| - 1]];
      r
    else s
  }

  /** `s.trim()`: `s` with white space removed at both ends; what is removed
      is white space, and what is left neither starts nor ends with it. */
  function Trim(s: string): (r: string)
    ensures r == [] <==> IsBlank(s)
    ensures r != [] ==> !IsWhitespace(r[0]) && !IsWhitespace(r[|r| - 1])
  {
    var t := TrimStart(s);
    var r := TrimEnd(t);
    TrimShape(s, |s| - |t|, t, r);
    r
  }

  /** What `Trim` promises, from what the two halves promise: `t` is what
      is left of `s` after its first `i` characters, `r` a prefix of `t`. */
  lemma TrimShape(s: string, i: nat, t: string, r: string)
    requires i <= |s| && t == s[i..] && IsBlank(s[..i]) && (t == [] || !IsWhitespace(t[0]))
    requires |r| <= |t| && r == t[..|r|] && IsBlank(t[|r|..]) && (r == [] || !IsWhitespace(r[|r| - 1]))
    ensures r == [] <==> IsBlank(s)
    ensures r != [] ==> !IsWhitespace(r[0]) && !IsWhitespace(r[|r| - 1])
    ensures i + |r| <= |s| && r == s[i..i + |r|]
    ensures IsBlank(s[..i]) && IsBlank(s[i + |r|..])
  {
    assert s[i + |r|..] == t[|r|..];
    if r == [] {
      assert s == s[..i] + t;
      BlankConcat(s[..i], t);
    } else {
      assert s[i] == r[0];
    }
  }

  lemma BlankConcat(a: string, b: string)
    requires IsBlank(a) && IsBlank(b)
    ensures IsBlank(a + b)
  {
    forall k | 0 <= k < |a + b| ensures IsWhitespace((a + b)[k]) {
      if k >= |a| { assert (a + b)[k] == b[k - |a|]; }
    }
  }

  /** Trimming twice changes nothing more than trimming once. */
  lemma TrimIdempotent(s: string)
    ensures Trim(Trim(s)) == Trim(s)
  {
    TrimOfUnpadded(Trim(s));
  }

  /** A string that neither starts nor ends with white space is its own trim. */
  lemma TrimOfUnpadded(s: string)
    requires s == [] || (!IsWhitespace(s[0]) && !IsWhitespace(s[|s| - 1]))
    ensures Trim(s) == s
  {
  }

  /** A character outside the Basic Multilingual Plane: JavaScript stores
      it as a surrogate pair, two UTF-16 code units. */
  predicate IsAstral(c: char) {
    c as int > 0xFFFF
  }

  /** `s.length`: the number of UTF-16 code units of `s`. */
  function Utf16Length(s: string): (n: nat)
    ensures |s| <= n <= 2 * |s|
  {
    if s == [] then 0
    else Utf16Length(s[..|s| - 1]) + (if IsAstral(s[|s| - 1]) then 2 else 1)
  }

  /** Without astral characters, the JavaScript length is the number of
      characters. */
  lemma {:induction false} Utf16LengthOfBmp(s: string)
    requires forall k :: 0 <= k < |s| ==> !IsAstral(s[k])
    ensures Utf16Length(s) == |s|
  {
    if s != [] {
      Utf16LengthOfBmp(s[..|s| - 1]);
    }
  }

  /** Each astral character adds one code unit more. */
  lemma {:induction false} Utf16LengthAppend(s: string, c: char)
    ensures Utf16Length(s + [c]) == Utf16Length(s) + (if IsAstral(c) then 2 else 1)
  {
    assert (s + [c])[..|s + [c]| - 1] == s;
  }

  /** `s.startsWith(prefix)`. */
  predicate StartsWith(s: string, prefix: string) {
    |prefix| <= |s| && s[..|prefix|] == prefix
  }

  // ---------------------------------------------------------------------
  // parseInt

  /** A JavaScript number as `parseInt` can produce it: an integer or NaN.
      (Rounding of integers beyond 2^53 is not modelled; every use in the
      application compares the value with bounds no larger than 100.) */
  datatype NumberValue = Int(value: int) | NaN

  /** The value of an ASCII letter or digit as a digit of bases up to 36, or -1. */
  function DigitValue(c: char): int {
    if '0' <= c <= '9' then c as int - '0' as int
    else if 'a' <= c <= 'z' then c as int - 'a' as int + 10
    else if 'A' <= c <= 'Z' then c as int - 'A' as int + 10
    else -1
  }

  predicate IsDigit(c: char, radix: nat) {
    0 <= DigitValue(c) < radix
  }

  predicate AllDigits(s: string, radix: nat) {
    forall k :: 0 <= k < |s| ==> IsDigit(s[k], radix)
  }

  /** The length of the longest prefix of `s` made of digits of `radix`. */
  function DigitRun(s: string, radix: nat): (n: nat)
    ensures n <= |s| && AllDigits(s[..n], radix)
    ensures n < |s| ==> !IsDigit(s[n], radix)
  {
    if |s| > 0 && IsDigit(s[0], radix) then
      var n := 1 + DigitRun(s[1..], radix);
      assert s[..n] == [s[0]] + s[1..][..n - 1];
      n
    else 0
  }

  /** The value of a digit string, most significant digit first. */
  function DigitsValue(ds: string, radix: nat): nat
    requires AllDigits(ds, radix)
  {
    if ds == [] then 0
    else DigitsValue(ds[..|ds| - 1], radix) * radix + DigitValue(ds[|ds| - 1])
  }

  /** `parseInt(s)` with no radix: skip leading white space, read an optional
      sign, let a `0x`/`0X` prefix select base 16, then take the longest run
      of digits; no digit at all gives NaN. */
  function ParseInt(s: string): (r: NumberValue)
    ensures IsBlank(s) ==> r == NaN
    ensures r.Int? ==> TrimStart(s) != [] && (r.value < 0 ==> TrimStart(s)[0] == '-')
    ensures r.Int? && r.value > 0 ==> TrimStart(s)[0] != '-'
  {
    BlankTrimsToEmpty(s);
    var t := TrimStart(s);
    var negative := |t| > 0 && t[0] == '-';
    var unsigned := if |t| > 0 && (t[0] == '-' || t[0] == '+') then t[1..] else t;
    match ParseMagnitude(unsigned)
    case NaN => NaN
    case Int(v) => Int(if negative then -v else v)
  }

  /** `trimStart` leaves nothing of a blank string. */
  lemma BlankTrimsToEmpty(s: string)
    ensures IsBlank(s) ==> TrimStart(s) == []
  {
  }

  /** Leading white space does not change what `parseInt` reads. */
  lemma ParseIntSkipsWhitespace(w: string, s: string)
    requires IsBlank(w)
    ensures ParseInt(w + s) == ParseInt(s)
  {
    TrimStartOfBlankPrefix(w, s);
  }

  /** `trimStart` removes a blank prefix along with whatever white space
      follows it. */
  lemma {:induction false} TrimStartOfBlankPrefix(w: string, s: string)
    requires IsBlank(w)
    ensures TrimStart(w + s) == TrimStart(s)
  {
    if w == [] {
      assert w + s == s;
    } else {
      assert (w + s)[0] == w[0] && (w + s)[1..] == w[1..] + s;
      TrimStartOfBlankPrefix(w[1..], s);
    }
  }

  /** A minus sign in front of an unsigned numeral negates what `parseInt`
      reads, and keeps NaN as NaN. */
  lemma ParseIntNegated(u: string)
    requires u == [] || (!IsWhitespace(u[0]) && u[0] != '-' && u[0] != '+')
    ensures ParseInt("-" + u) == (match ParseInt(u) case NaN => NaN case Int(v) => Int(-v))
  {
    var s := "-" + u;
    assert s[0] == '-' && s[1..] == u;
    assert !IsWhitespace('-');
    assert TrimStart(s) == s;
    assert TrimStart(u) == u;
    ParseIntOfTrimmed(s, u);
    ParseIntOfTrimmed(u, u);
  }

  /** `parseInt` of a string with no leading white space: the sign, if
      any, then the magnitude of what follows it. */
  lemma ParseIntOfTrimmed(s: string, unsigned: string)
    requires TrimStart(s) == s
    requires unsigned == if |s| > 0 && (s[0] == '-' || s[0] == '+') then s[1..] else s
    ensures ParseInt(s) == match ParseMagnitude(unsigned)
      case NaN => NaN
      case Int(v) => Int(if |s| > 0 && s[0] == '-' then -v else v)
  {
  }

  /** The unsigned part of `parseInt`: a `0x`/`0X` prefix selects base 16,
      then the longest run of digits is read; NaN when there is none. */
  function ParseMagnitude(u: string): NumberValue {
    var hex := |u| >= 2 && u[0] == '0' && (u[1] == 'x' || u[1] == 'X');
    var radix := if hex then 16 else 10;
    var digits := if hex then u[2..] else u;
    var n := DigitRun(digits, radix);
    if n == 0 then NaN else Int(DigitsValue(digits[..n], radix))
  }

  /** The decimal numeral of `n`, without leading zeros. */
  function Decimal(n: nat): (r: string)
    ensures |r| >= 1 && AllDigits(r, 10)
    ensures n > 0 ==> r[0] != '0'
  {
    var d := ['0' + (n % 10) as char];
    if n < 10 then d else Decimal(n / 10) + d
  }

  /** Reading a numeral back gives the number it was written from. */
  lemma {:induction false} DecimalValue(n: nat)
    ensures DigitsValue(Decimal(n), 10) == n
  {
    var r := Decimal(n);
    if n >= 10 {
      assert r[..|r| - 1] == Decimal(n / 10);
      DecimalValue(n / 10);
    }
  }

  /** `parseInt` reads the numeral of `n` back as `n` when it is followed
      by nothing or by any non-digit text (as in `parseInt("50abc") === 50`),
      except an `x` or `X` right after the numeral 0, which `parseInt`
      takes for a hexadecimal prefix. */
  lemma ParseIntDecimal(n: nat, rest: string)
    requires rest == [] || !IsDigit(rest[0], 10)
    requires n == 0 ==> rest == [] || (rest[0] != 'x' && rest[0] != 'X')
    ensures ParseInt(Decimal(n) + rest) == Int(n)
  {
    var d := Decimal(n);
    var s := d + rest;
    assert s[0] == d[0] && IsDigit(d[0], 10);
    ParseIntUnsigned(s);
    MagnitudeOfDecimal(n, rest);
  }

  /** Without leading white space or a sign, `parseInt` reads just the
      magnitude. */
  lemma ParseIntUnsigned(s: string)
    requires s != [] && IsDigit(s[0], 10)
    ensures ParseInt(s) == ParseMagnitude(s)
  {
    assert !IsWhitespace(s[0]);
    assert TrimStart(s) == s;
  }

  /** The numeral of `n`, followed by a non-digit, reads as `n`. */
  lemma MagnitudeOfDecimal(n: nat, rest: string)
    requires rest == [] || !IsDigit(rest[0], 10)
    requires n == 0 ==> rest == [] || (rest[0] != 'x' && rest[0] != 'X')
    ensures ParseMagnitude(Decimal(n) + rest) == Int(n)
  {
    var d := Decimal(n);
    var s := d + rest;
    assert !(|s| >= 2 && s[0] == '0' && (s[1] == 'x' || s[1] == 'X')) by {
      assert s[0] == d[0];
      if |d| >= 2 { assert s[1] == d[1]; }
    }
    DigitRunOfPrefix(d, rest);
    assert s[..|d|] == d;
    DecimalValue(n);
  }

  /** The digit run of a numeral followed by a non-digit is the numeral. */
  lemma {:induction false} DigitRunOfPrefix(d: string, rest: string)
    requires AllDigits(d, 10)
    requires rest == [] || !IsDigit(rest[0], 10)
    ensures DigitRun(d + rest, 10) == |d|
  {
    if d != [] {
      assert (d + rest)[1..] == d[1..] + rest;
      DigitRunOfPrefix(d[1..], rest);
    } else {
      assert d + rest == rest;
    }
  }
}

=== FILE: middleware.dfy ===
/** The `authorized` callback of the authentication middleware
    (`middleware.ts`): whether a request for `pathname` may proceed, given
    whether the request carries a session token. */
module Middleware {
  import opened JsString

  /** Paths that need a token, matched as plain string prefixes. */
  const ProtectedRoutes: seq<string> := ["/dashboard", "/chat", "/profile", "/api/chat", "/api/user"]

  /** Paths open to everyone, matched exactly. */
  const PublicRoutes: seq<string> := ["/", "/auth/signin", "/auth/signup", "/api/auth/register"]

  /** `publicRoutes.some(route => pathname === route || pathname.startsWith("/api/auth/"))`. */
  predicate IsPublicRoute(pathname: string) {
    exists k :: 0 <= k < |PublicRoutes| && (pathname == PublicRoutes[k] || StartsWith(pathname, "/api/auth/"))
  }

  /** `protectedRoutes.some(route => pathname.startsWith(route))`. */
  predicate IsProtectedRoute(pathname: string) {
    exists k :: 0 <= k < |ProtectedRoutes| && StartsWith(pathname, ProtectedRoutes[k])
  }

  /** Public routes pass; otherwise protected routes pass exactly when a
      token is present; every other path passes. */
  function Authorized(pathname: string, hasToken: bool): (r: bool)
    ensures IsPublicRoute(pathname) ==> r
    ensures !IsPublicRoute(pathname) && IsProtectedRoute(pathname) ==> (r <==> hasToken)
    ensures !IsProtectedRoute(pathname) ==> r
    ensures !r ==> !hasToken
  {
    if IsPublicRoute(pathname) then true
    else if IsProtectedRoute(pathname) then hasToken
    else true
  }

  /** Everything under `/api/auth/` is open, token or not. */
  lemma AuthApiIsOpen(pathname: string, hasToken: bool)
    requires StartsWith(pathname, "/api/auth/")
    ensures Authorized(pathname, hasToken)
  {
    assert pathname == PublicRoutes[0] || StartsWith(pathname, "/api/auth/");
  }

  /** The four public paths are open without a token. */
  lemma PublicPathsAreOpen(pathname: string)
    requires pathname in PublicRoutes
    ensures Authorized(pathname, false)
  {
    var k :| 0 <= k < |PublicRoutes| && PublicRoutes[k] == pathname;
  }

  /** A path that is not public and begins with one of the protected
      prefixes is let through exactly when a token is present. */
  lemma ProtectedNeedsToken(pathname: string, route: string, hasToken: bool)
    requires route in ProtectedRoutes && StartsWith(pathname, route)
    requires pathname !in PublicRoutes && !StartsWith(pathname, "/api/auth/")
    ensures Authorized(pathname, hasToken) <==> hasToken
  {
    var k :| 0 <= k < |ProtectedRoutes| && ProtectedRoutes[k] == route;
  }

  /** The prefix test ignores path segments: `/chatroom` is protected as
      `/chat` is, and so is the history API under `/api/chat`. */
  lemma PrefixIsNotSegmentAware()
    ensures !Authorized("/chatroom", false) && Authorized("/chatroom", true)
    ensures !Authorized("/api/chat/history", false)
  {
    ProtectedNeedsToken("/chatroom", "/chat", false);
    var history := "/api/chat/history";
    assert history[..10][5] != "/api/auth/"[5];
    ProtectedNeedsToken(history, "/api/chat", false);
  }

  /** A path matching neither list is open. */
  lemma OtherPathsAreOpen(pathname: string)
    requires forall route :: route in ProtectedRoutes ==> !StartsWith(pathname, route)
    ensures Authorized(pathname, false)
  {
  }
}

=== FILE: register_route.dfy ===
/**
 * The registration endpoint (`src/app/api/auth/register/route.ts`): reads
 * name, email and password from the JSON body, validates them in a fixed
 * order and creates the user.
 */
module RegisterRoute {
  import opened Wrappers
  import opened JsString
  import opened Errors
  import opened Http
  import opened Database
  import opened UserService

  /** The request body: either not JSON at all (the parser's error message),
      or an object whose three fields are each absent or a string. */
  datatype RegisterRequest =
    | Malformed(parseError: string)
    | RegisterBody(name: Option<string>, email: Option<string>, password: Option<string>)

  datatype Credentials = Credentials(name: string, email: string, password: string)

  /** A body field as `validateRequired` sees it. */
  function FieldValue(v: Option<string>): JsValue {
    match v
    case None => Undefined
    case Some(s) => Str(s)
  }

  /** Present and not blank. */
  predicate Given(v: Option<string>) {
    v.Some? && !IsBlank(v.value)
  }

  /** The five checks, in the order the handler runs them; the first that
      fails decides the error. */
  function ValidateRegistration(name: Option<string>, email: Option<string>, password: Option<string>)
    : (r: Result<Credentials>)
    ensures r.Ok? <==>
      Given(name) && Given(email) && Given(password)
      && MatchesEmailPattern(email.value) && Utf16Length(password.value) >= MinPasswordLength
    ensures r.Ok? ==> r.value == Credentials(name.value, email.value, password.value)
    ensures r.Err? ==> r.error.Status() == 400
  {
    var _ :- ValidateRequired(FieldValue(name), "Name");
    var _ :- ValidateRequired(FieldValue(email), "Email");
    var _ :- ValidateRequired(FieldValue(password), "Password");
    var _ :- ValidateEmail(email.value);
    var _ :- ValidatePassword(password.value);
    Ok(Credentials(name.value, email.value, password.value))
  }

  /** The three presence checks come first, in the order name, email,
      password, each naming its field. */
  lemma RequiredFieldsFirst(name: Option<string>, email: Option<string>, password: Option<string>)
    ensures !Given(name) ==> ValidateRegistration(name, email, password) == Err(ValidationError("Name is required"))
    ensures Given(name) && !Given(email) ==>
      ValidateRegistration(name, email, password) == Err(ValidationError("Email is required"))
    ensures Given(name) && Given(email) && !Given(password) ==>
      ValidateRegistration(name, email, password) == Err(ValidationError("Password is required"))
  {
    RequiredMessageText();
    if Given(name) {
      assert ValidateRequired(FieldValue(name), "Name") == Ok(());
      if Given(email) {
        assert ValidateRequired(FieldValue(email), "Email") == Ok(());
      }
    }
  }

  /** The messages `validateRequired` gives for the three body fields. */
  lemma RequiredMessageText()
    ensures "Name" + " is required" == "Name is required"
    ensures "Email" + " is required" == "Email is required"
    ensures "Password" + " is required" == "Password is required"
  {
  }

  /** With all three present, the address is checked before the password
      length: a malformed address is reported even when the password is
      also too short. */
  lemma EmailCheckedBeforePassword(name: string, email: string, password: string)
    requires !IsBlank(name) && !IsBlank(email) && !IsBlank(password)
    ensures !MatchesEmailPattern(email) ==>
      ValidateRegistration(Some(name), Some(email), Some(password)) == Err(ValidationError("Invalid email format"))
    ensures MatchesEmailPattern(email) && Utf16Length(password) < MinPasswordLength ==>
      ValidateRegistration(Some(name), Some(email), Some(password)) ==
        Err(ValidationError("Password must be at least 6 characters long"))
  {
    assert ValidateRequired(FieldValue(Some(name)), "Name") == Ok(());
    assert ValidateRequired(FieldValue(Some(email)), "Email") == Ok(());
    assert ValidateRequired(FieldValue(Some(password)), "Password") == Ok(());
  }

  /** `POST`: a body that is not JSON is an internal error; a failed check
      is a 400 naming the first check that failed; an email already taken is
      a 409; a database failure is a 500; success is a 201 carrying the new
      user's id. The table changes only on success, by exactly one user. */
  method Post(table: UserTable, request: RegisterRequest, fault: Fault) returns (r: Response)
    requires table.Valid()
    modifies table
    ensures table.Valid()
    ensures request.Malformed? ==> r.status == 500 && r == HandleApiError(ThrownError(request.parseError))
    ensures request.RegisterBody? && ValidateRegistration(request.name, request.email, request.password).Err? ==>
      r.status == 400 &&
      r == HandleApiError(ThrownApiError(ValidateRegistration(request.name, request.email, request.password).error))
    ensures (request.RegisterBody? && ValidateRegistration(request.name, request.email, request.password).Ok?
             && !fault.ConnectFails?
             && EmailTaken(old(table.users), request.email.value)) ==>
      r.status == 409 && r == HandleApiError(ThrownApiError(ConflictError("User already exists")))
    ensures (request.RegisterBody? && ValidateRegistration(request.name, request.email, request.password).Ok?
             && fault.ConnectFails?) ==>
      r.status == 500 && r == HandleApiError(ThrownApiError(DatabaseError("Failed to create user")))
    ensures (request.RegisterBody? && ValidateRegistration(request.name, request.email, request.password).Ok?
             && fault.OperationFails?
             && !EmailTaken(old(table.users), request.email.value)) ==>
      r.status == 500 && r == HandleApiError(ThrownApiError(DatabaseError("Failed to create user")))
    ensures r.status == 201 <==>
      && request.RegisterBody? && ValidateRegistration(request.name, request.email, request.password).Ok?
      && fault.Healthy?
      && !EmailTaken(old(table.users), request.email.value)
    ensures r.status == 201 ==>
      && r.body == CreatedJson("User created successfully", |old(table.users)|)
      && table.users == old(table.users) + [User(|old(table.users)|, request.name.value, request.email.value,
                                                HashOf(request.password.value))]
    ensures r.status != 201 ==> table.users == old(table.users)
  {
    if request.Malformed? {
      r := WithErrorHandler(Threw(ThrownError(request.parseError)));
    } else {
      var checked := ValidateRegistration(request.name, request.email, request.password);
      if checked.Err? {
        r := WithErrorHandler(Threw(ThrownApiError(checked.error)));
      } else {
        var c := checked.value;
        var created := table.CreateUser(c.name, c.email, c.password, fault);
        assert "Failed to create user"[0] != "User already exists"[0];
        if created.Ok? {
          r := WithErrorHandler(Returned(Response(201, CreatedJson("User created successfully", created.value))));
        } else if created.error.message == "User already exists" {
          r := WithErrorHandler(Threw(ThrownApiError(ConflictError("User already exists"))));
        } else {
          r := WithErrorHandler(Threw(ThrownApiError(created.error)));
        }
      }
    }
  }
}

=== FILE: user_service.dfy ===
/**
 * The user table (`src/lib/user-service.ts`): users are keyed by email,
 * an id is handed out on insertion, and the password is kept only as its
 * hash.
 */
module UserService {
  import opened Wrappers
  import opened Errors
  import opened Database

  /** The bcrypt hash of a password, kept abstract: two hashes are equal
      exactly when the passwords are (a collision-free hash). */
  datatype PasswordHash = HashOf(password: string)

  /** `IUser`; the id is the position of the insertion, standing in for the
      generated ObjectId. */
  datatype User = User(id: nat, name: string, email: string, passwordHash: PasswordHash)

  /** Some user of `users` has that email. */
  predicate EmailTaken(users: seq<User>, email: string) {
    exists k :: 0 <= k < |users| && users[k].email == email
  }

  /** `findOne({ email })`: the first user with that email. */
  function FindByEmail(users: seq<User>, email: string): (r: Option<User>)
    ensures r.Some? <==> EmailTaken(users, email)
    ensures r.Some? ==> r.value in users && r.value.email == email
  {
    if users == [] then None
    else if users[0].email == email then Some(users[0])
    else FindByEmail(users[1..], email)
  }

  /** `findById(id)`: the first user with that id. */
  function FindById(users: seq<User>, id: nat): (r: Option<User>)
    ensures r.Some? <==> exists k :: 0 <= k < |users| && users[k].id == id
    ensures r.Some? ==> r.value in users && r.value.id == id
  {
    if users == [] then None
    else if users[0].id == id then Some(users[0])
    else FindById(users[1..], id)
  }

  /** No two users share an email, and each user's id is its position. */
  ghost predicate WellFormed(users: seq<User>) {
    && (forall k :: 0 <= k < |users| ==> users[k].id == k)
    && (forall i, j :: 0 <= i < j < |users| ==> users[i].email != users[j].email)
  }

  /** Appending a user with a fresh email: a lookup of that email finds the
      new user, and a lookup of any other email finds what it found before. */
  lemma {:induction false} FindAfterInsert(users: seq<User>, u: User, email: string)
    requires FindByEmail(users, u.email).None?
    ensures FindByEmail(users + [u], email) ==
      if email == u.email then Some(u) else FindByEmail(users, email)
  {
    if users == [] {
      assert users + [u] == [u];
    } else {
      assert (users + [u])[1..] == users[1..] + [u];
      if users[0].email != email {
        FindAfterInsert(users[1..], u, email);
      }
    }
  }

  /** In a well-formed table, looking an id up finds the user at that
      position, and nothing beyond the end. */
  lemma IdIsPosition(users: seq<User>, id: nat)
    requires WellFormed(users)
    ensures FindById(users, id) == if id < |users| then Some(users[id]) else None
  {
    var r := FindById(users, id);
    if r.Some? {
      var k :| 0 <= k < |users| && users[k] == r.value;
    }
  }

  /** `verifyPassword`: compares the hash of the offered password with the
      stored one. */
  function VerifyPassword(plainPassword: string, user: User): (r: bool)
    ensures r ==> plainPassword == user.passwordHash.password
  {
    HashOf(plainPassword) == user.passwordHash
  }

  /** A user created with password `p` is verified by `p` and by nothing
      else. */
  lemma VerifyCreatedPassword(id: nat, name: string, email: string, p: string, q: string)
    ensures VerifyPassword(q, User(id, name, email, HashOf(p))) <==> q == p
  {
  }

  class UserTable {
    var users: seq<User>

    ghost predicate Valid()
      reads this
    {
      WellFormed(users)
    }

    constructor ()
      ensures Valid() && users == []
    {
      users := [];
    }

    /** `getUserByEmail`: the user with that email, or none. */
    function GetUserByEmail(email: string, fault: Fault): (r: Result<Option<User>>)
      reads this
      ensures !fault.Healthy? ==> r == Err(DatabaseError("Failed to retrieve user by email"))
      ensures fault.Healthy? ==> r.Ok?
      ensures r.Ok? ==> (r.value.Some? <==> EmailTaken(users, email))
      ensures r.Ok? && r.value.Some? ==> r.value.value in users && r.value.value.email == email
    {
      if !fault.Healthy? then Err(DatabaseError("Failed to retrieve user by email"))
      else Ok(FindByEmail(users, email))
    }

    /** `getUserById`: the user with that id, or none. */
    function GetUserById(id: nat, fault: Fault): (r: Result<Option<User>>)
      reads this
      ensures !fault.Healthy? ==> r == Err(DatabaseError("Failed to retrieve user by ID"))
      ensures fault.Healthy? ==> r.Ok?
      ensures r.Ok? ==> (r.value.Some? <==> exists k :: 0 <= k < |users| && users[k].id == id)
      ensures r.Ok? && r.value.Some? ==> r.value.value in users && r.value.value.id == id
    {
      if !fault.Healthy? then Err(DatabaseError("Failed to retrieve user by ID"))
      else Ok(FindById(users, id))
    }

    /** `createUser`: after the connection, an email already present is a
        conflict that leaves the table as it was; otherwise exactly one user
        is added, with the given name and email and the hash of the
        password, and its id is returned. A failure other than the conflict
        becomes a DatabaseError. The new user can then be found by email and
        by id. */
    method CreateUser(name: string, email: string, password: string, fault: Fault) returns (r: Result<nat>)
      requires Valid()
      modifies this
      ensures Valid()
      ensures fault.ConnectFails? ==> r == Err(DatabaseError("Failed to create user"))
      ensures !fault.ConnectFails? && EmailTaken(old(users), email) ==>
        r == Err(ConflictError("User already exists"))
      ensures fault.OperationFails? && !EmailTaken(old(users), email) ==>
        r == Err(DatabaseError("Failed to create user"))
      ensures r.Ok? <==> fault.Healthy? && !EmailTaken(old(users), email)
      ensures r.Ok? ==>
        && r.value == |old(users)|
        && users == old(users) + [User(r.value, name, email, HashOf(password))]
        && GetUserByEmail(email, Healthy) == Ok(Some(users[r.value]))
        && GetUserById(r.value, Healthy) == Ok(Some(users[r.value]))
      ensures r.Err? ==> users == old(users)
    {
      if fault.ConnectFails? {
        return Err(DatabaseError("Failed to create user"));
      }
      var existing := FindByEmail(users, email);
      if existing.Some? {
        return Err(ConflictError("User already exists"));
      }
      if fault.OperationFails? {
        return Err(DatabaseError("Failed to create user"));
      }
      var user := User(|users|, name, email, HashOf(password));
      FindAfterInsert(users, user, email);
      users := users + [user];
      IdIsPosition(users, user.id);
      r := Ok(user.id);
    }
  }
}

=== FILE: wrappers.dfy ===
/** The optional value used wherever the source has `undefined`/`null`. */
module Wrappers {

  datatype Option<+T> = None | Some(value: T) {
    function GetOr(default: T): T {
      match this
      case Some(v) => v
      case None => default
    }
  }
}
